=== FILE: README.md ===
# Teleport cores in Dafny

A Dafny model of five small cores of Teleport, with their properties proved:

- **External Cloud Audit credentials cache** (`credentials_cache.dfy`, module `CredentialsCache`). It holds one (credentials, error) pair and two one-shot latches. It has a refresh loop that waits for the OIDC token source, refreshes once, then re-checks on every tick. The refresh rule keeps fresh credentials, installs new ones, and keeps usable credentials when a refresh fails. The v1 SDK adapter is modelled too.
- **Interval** (`interval.dfy`, module `Interval`). This is a resettable, jitterable periodic trigger. The `run` select loop is a state machine over the timer deadline, the staged tick, the one-slot output buffer and the done/running flags. Each select arm, each caller operation and each consumer receive is an event.
- **SafeEnv** (`envutils.dfy`, module `EnvUtils`). It builds an environment while refusing the dynamic-loader variables and, optionally, keys already set. The line rules of `ReadEnvironmentFile` are included.
- **Discovery filters** (`database_watcher.dfy`, module `Discovery`). `filterResources` picks resources by origin and discovery-group label. `getAllDatabaseFetchers` concatenates the dynamic fetcher sets and the static fetchers.
- **AWS OIDC client request** (`awsoidc_clients.dfy`, module `AwsOidc`). The request is validated with a fixed error order, the static identity token is passed through, and `newAWSConfig` validates before it loads anything.

Shared definitions: `wrappers.dfy` (`Option`, `Result`) and `sequences.dfy` (`IsSubsequence`, with a lemma for skipping an element of the longer sequence and one that a subsequence is no longer and holds only elements of the other).

Modelling conventions:
- Time is an integer number of nanoseconds.
- A `string` is a sequence of Unicode code points. UTF-8 encoding is not modelled, so Go's byte-level views (`line[0]`, `[]byte(token)`) are read on code points; for the ASCII characters they test this makes no difference.
- Outside services become arguments: the OIDC issuer's answer (the `issued` result of a `Poll`, which stands for what `CredentialsCache.Refresh` returns for that poll's token and STS exchange), the STS exchange, the SDK's `LoadDefaultConfig`, and the value of `time.Now()` seen by `FireNow`.
- Go's unspecified map iteration order is an argument constrained to visit every key once.
- A jitter is an arbitrary function of the nominal duration and the call index.

## Model

| member | source | states |
|---|---|---|
| CredentialsCache.NewCache | lib/integrations/externalcloudaudit/configurator.go:282-298 | a new cache holds empty credentials and the "not yet initialized" error, both latches are open, and the cache invariant holds |
| CredentialsCache.SetGenerateOIDCTokenFn | lib/integrations/externalcloudaudit/configurator.go:300-303 | attaching the token source closes the initialized latch, changes nothing else and keeps the invariant |
| CredentialsCache.Retrieve | lib/integrations/externalcloudaudit/configurator.go:308-312 | Retrieve answers the stored credentials and error exactly, and has no effect on the cache |
| CredentialsCache.SetCredsOrErr | lib/integrations/externalcloudaudit/configurator.go:367-372 | a write stores the new pair, closes the first-result latch and leaves the initialized latch alone |
| CredentialsCache.Refresh | lib/integrations/externalcloudaudit/configurator.go:374-394 | a token failure is the result; otherwise the result is the STS exchange of the token, passed as the cache's own `identityToken` type (lines 403-409) |
| CredentialsCache.TokenFailureSkipsExchange | lib/integrations/externalcloudaudit/configurator.go:375-378 | when the token request fails, no STS exchange is made: the outcome is the same for every exchange |
| CredentialsCache.RefreshIfNeeded | lib/integrations/externalcloudaudit/configurator.go:338-365 | covers every branch. (1) No error, keys present and now + 15 min strictly before expiry: nothing changes and the issuer is not called. (2) Otherwise the issuer is called: success stores (creds, nil); failure keeps the credentials when they have keys and are unexpired at the second clock read (line 353), else stores (empty, wrapped error). (3) Every change closes the first-result latch. The two clock reads are separate arguments. |
| CredentialsCache.RefreshPreservesValid | lib/integrations/externalcloudaudit/configurator.go:338-365 | a refresh keeps the invariant: no error beside credentials, and the placeholder error exactly until the first write |
| CredentialsCache.NeverDiscardsUsableCredentials | lib/integrations/externalcloudaudit/configurator.go:349-357 | while the cached credentials have keys and are unexpired when the failed refresh returns, a refresh never installs an error; Retrieve then gives the old or the new credentials |
| CredentialsCache.ExpiryDuringRefreshInstallsError | lib/integrations/externalcloudaudit/configurator.go:349-360 | credentials usable at the first clock read but expired at the second are replaced by the wrapped error when the refresh fails |
| CredentialsCache.NoKeysBesideError | lib/integrations/externalcloudaudit/configurator.go:358-360 | in a valid cache, an error is never stored together with keyed credentials |
| CredentialsCache.Start | lib/integrations/externalcloudaudit/configurator.go:282-298 | a started system is a new cache whose loop waits for the token source, with its context not cancelled |
| CredentialsCache.Step | lib/integrations/externalcloudaudit/configurator.go:314-336 | one loop event. Before the latch closes, a poll does nothing; once it is closed, the loop refreshes and keeps polling. Cancel only marks the context done; a poll of a returned loop changes nothing; the loop returns (Exit) only once it is, and a returned loop never writes. A cancelled loop that has not returned may still refresh, as a select with several ready cases may pick either. SetIssuer only closes the latch. |
| CredentialsCache.RunPreservesValid | lib/integrations/externalcloudaudit/configurator.go:314-336 | every cache reachable by any event sequence satisfies the invariant |
| CredentialsCache.LatchesNeverReopen | lib/integrations/externalcloudaudit/configurator.go:289-291 | once closed, each latch stays closed, and a cancelled context stays cancelled, along any event sequence |
| CredentialsCache.NothingHappensWithoutIssuerStep | lib/integrations/externalcloudaudit/configurator.go:316-321 | only SetIssuer closes the initialized latch; before it, a loop that is not polling writes nothing |
| CredentialsCache.NothingHappensWithoutIssuerLoop | lib/integrations/externalcloudaudit/configurator.go:316-321 | along any event sequence without SetIssuer, a waiting loop never starts polling and the stored pair and the first-result latch do not change |
| CredentialsCache.RetrieveBeforeAttach | lib/integrations/externalcloudaudit/configurator.go:292-294 | until the token source is attached, Retrieve answers empty credentials with the "not yet initialized" error, and waiters are not released |
| CredentialsCache.StoppedLoopWritesNothing | lib/integrations/externalcloudaudit/configurator.go:316-334 | once the loop has returned it stays returned, and the stored pair and first-result latch never change |
| CredentialsCache.CancelledFromThenOn | lib/integrations/externalcloudaudit/configurator.go:316-334 | a cancellation anywhere in an event sequence leaves the context cancelled at its end |
| CredentialsCache.ExitBeforeAttachMeansNoRefresh | lib/integrations/externalcloudaudit/configurator.go:316-321 | if the loop returns on cancellation before the token source is attached, it never refreshes: the placeholder stays forever |
| CredentialsCache.CancelledLoopMayStillRefresh | lib/integrations/externalcloudaudit/configurator.go:316-334 | cancellation alone does not stop the loop: with the latch closed, a poll taken after Cancel still refreshes and can install an error |
| CredentialsCache.FirstFailureReleasesWaiters | lib/integrations/externalcloudaudit/configurator.go:396-401 | a failed first refresh still releases waitForFirstCredsOrErr, and Retrieve reports the wrapped failure |
| CredentialsCache.StaleButValidServed | lib/integrations/externalcloudaudit/configurator.go:349-357 | credentials issued at one poll are still served after a failed next poll while unexpired at that poll's second clock read |
| CredentialsCache.RetrieveV1 | lib/integrations/externalcloudaudit/configurator.go:420-432 | the v1 adapter gives the zero value with the error when the cache holds one, else the four fields copied one for one |
| CredentialsCache.IsExpiredV1 | lib/integrations/externalcloudaudit/configurator.go:441-443 | the v1 adapter always reports expired |
| Interval.New | lib/utils/interval/interval.go:76-106 | a new interval is running with nothing staged or buffered. A zero FirstDuration arms the timer with the first duration() draw; any other value is used unjittered. |
| Interval.NewNoop | lib/utils/interval/interval.go:66-72 | a no-op interval has no running loop and nothing staged or buffered |
| Interval.Step | lib/utils/interval/interval.go:108-192 | one select arm. A fire stages its time, replacing an undelivered tick, and re-arms with duration(). Reset drops the staged tick and re-arms; FireNow stages time.Now() and re-arms. A send moves the staged tick into the empty buffer once; a send or a receive leaves the timer and the duration() draws alone. A timer that is not due changes nothing. Stop only closes the done channel, so a staged or buffered tick survives it (the output channel is not closed); Stop is permanent. Exit leaves the timer, the staged tick and the buffer alone, and nothing of the loop happens after it. |
| Interval.EachTickDeliveredAtMostOnce | lib/utils/interval/interval.go:183-186 | ticks received plus ticks still held never exceed ticks held at the start plus fire/FireNow events: no tick is delivered twice |
| Interval.NewIntervalDeliversNoMoreThanStaged | lib/utils/interval/interval.go:155-186 | from New, the consumer receives at most one tick per timer fire or FireNow |
| Interval.NothingAfterExit | lib/utils/interval/interval.go:187-189 | after the loop returns, at most the tick already buffered is received, and the loop stays returned |
| Interval.NothingAfterExitEmpty | lib/utils/interval/interval.go:187-189 | after the loop returns with an empty buffer, no tick is ever received |
| Interval.NoopNeverTicks | lib/utils/interval/interval.go:66-72 | an interval from NewNoop never delivers a tick |
| Interval.StopIsIdempotent | lib/utils/interval/interval.go:112-116 | stopping twice is stopping once |
| Interval.NewIntervalCallsReturn | lib/utils/interval/interval.go:120-134 | on an interval from New, Reset and FireNow can always return: the loop runs until Stop, and Stop is permanent |
| Interval.NoopCallsBlockUntilStop | lib/utils/interval/interval.go:120-134 | on a no-op interval, Reset and FireNow can return iff Stop has been called |
| Interval.NextFireWithinJitterBounds | lib/utils/interval/interval.go:143-148 | with every duration() in [lo, hi], a fire, Reset or FireNow at `now` arms the timer within [now + lo, now + hi] |
| Interval.FireNowTwiceCanMerge | lib/utils/interval/interval.go:173-186 | two FireNow calls taken before the first tick is sent yield one tick, the second call's time |
| EnvUtils.TrimSpace | lib/utils/envutils/environment.go:129-130 | the result has no white space at either end; it is the input when the input has none; it is empty iff the input is all white space |
| EnvUtils.TrimSpaceRemovesOnlyEndSpace | lib/utils/envutils/environment.go:129-130 | trimming removes only white space, only at the ends: the result is a slice of the input between two white-space runs |
| EnvUtils.TrimSpaceIdempotent | lib/utils/envutils/environment.go:154 | trimming a trimmed entry changes nothing |
| EnvUtils.IndexOfEquals | lib/utils/envutils/environment.go:63 | the position of the first '=', or -1 exactly when there is none |
| EnvUtils.KeyOf | lib/utils/envutils/environment.go:156 | the entry's name is the prefix before its first '=' (the whole entry when there is none) and holds no '=' |
| EnvUtils.AnyEntryHasPrefix | lib/utils/envutils/environment.go:177-181 | the loop finds a match iff some entry, upper-cased, starts with the prefix |
| EnvUtils.UnsafeKey | lib/utils/envutils/environment.go:165-185 | "" and "=" are never refused; any other key is refused iff its upper case is an unsafe variable or, with duplicate prevention, some entry's upper case starts with the key's upper case and '=' |
| EnvUtils.Add | lib/utils/envutils/environment.go:128-136 | add leaves the environment alone when unsafeKey refuses the trimmed key, and otherwise appends exactly trimmed-key "=" trimmed-value |
| EnvUtils.AddTrusted | lib/utils/envutils/environment.go:118-120 | the entry is appended iff the trimmed key's upper case is not an unsafe variable; existing entries stay in place |
| EnvUtils.AddUnique | lib/utils/envutils/environment.go:124-126 | the entry is appended iff the key is "" or "=", or it is safe and not yet set (compared case-insensitively) |
| EnvUtils.AddUniqueComparesAccentedNames | lib/utils/envutils/environment.go:124-185 | the duplicate test compares upper cases beyond ASCII: with "É=1" set, AddUnique("é", "2") adds nothing |
| EnvUtils.AddFull | lib/utils/envutils/environment.go:152-163 | addFull only appends: the old entries stay a prefix, and the new ones are trimmed inputs in input order |
| EnvUtils.AddFullEntry | lib/utils/envutils/environment.go:153-161 | one loop iteration: the trimmed entry is appended exactly when its name is "", or is safe and, with duplicate prevention, not already set; otherwise nothing changes |
| EnvUtils.AddFullSnoc | lib/utils/envutils/environment.go:152-163 | the loop processes its inputs one after the other: addFull over kvs + [kv] is one more iteration on the result for kvs |
| EnvUtils.AddFullBounds | lib/utils/envutils/environment.go:152-163 | addFull adds at most one entry per input, and every added entry is one of the trimmed inputs |
| EnvUtils.AddFullOnlySafe | lib/utils/envutils/environment.go:152-163 | every entry addFull appends has a name whose upper case is not an unsafe variable |
| EnvUtils.AddFullOnlyNew | lib/utils/envutils/environment.go:152-163 | with duplicate prevention, no appended entry sets a name set by any earlier entry, including earlier entries of the same call |
| EnvUtils.AddFullKeepsSafeEntries | lib/utils/envutils/environment.go:141-143 | without duplicate prevention, addFull appends exactly the trimmed entries with safe names, in input order |
| EnvUtils.AddFullTrusted | lib/utils/envutils/environment.go:141-143 | AddFullTrusted appends exactly the trimmed entries with safe names, in order |
| EnvUtils.AddFullUnique | lib/utils/envutils/environment.go:148-150 | AddFullUnique only appends trimmed inputs in order, all with safe names and none already set |
| EnvUtils.AddFullUniqueAppendsNewSafe | lib/utils/envutils/environment.go:148-163 | completeness: one more input is appended exactly when its name is "", or is safe and not set by the entries so far (earlier inputs included); otherwise nothing changes |
| EnvUtils.AddExecEnvironment | lib/utils/envutils/environment.go:188-190 | entries already present win: the process environment is only appended, with safe names not yet set; the result is AddFullUnique of the process environment, so every such entry is appended |
| EnvUtils.AddLetsUnsafeNameThrough | lib/utils/envutils/environment.go:128-136 | a key holding '=' makes add append an entry that sets LD_PRELOAD |
| EnvUtils.AddChecked | lib/utils/envutils/environment.go:128-136 | add as intended: the entry is appended exactly when the name it sets is "", or is safe and, with duplicate prevention, not already set; otherwise nothing changes |
| EnvUtils.AddCheckedAgreesWithoutEquals | lib/utils/envutils/environment.go:128-136 | for keys without '=', add as intended and add as written agree |
| EnvUtils.SplitLine | lib/utils/envutils/environment.go:57-75 | a trimmed line yields a key and value iff it is non-empty, does not start with '#', holds '=' and its text before the first '=' is not blank; the pair is then exactly that text and the rest after the '=' |
| EnvUtils.ParseLineAddsWellFormed | lib/utils/envutils/environment.go:57-78 | a line adds at most one entry, at the end. The entry is well formed: a non-empty safe name with no white space at either end and no leading '#', then '=', then a trimmed value. |
| EnvUtils.ParseLinesWellFormed | lib/utils/envutils/environment.go:46-79 | parsing only appends, at most one entry per line, and every entry is well formed |
| EnvUtils.ParseLineIsLineEntry | lib/utils/envutils/environment.go:47-78 | one line appends exactly its reference entry: nothing for a skipped, blank-keyed or unsafe line, else trimmed key "=" trimmed value |
| EnvUtils.ParseLinesIsFileEntries | lib/utils/envutils/environment.go:46-79 | the scan appends exactly the lines' reference entries, in line order |
| EnvUtils.ReadEnvironmentFileContract | lib/utils/envutils/environment.go:32-88 | at most one entry per line read and never more than 1000, all well formed. An open failure gives nothing, and so does a read failure (within the limit). Otherwise the result is exactly the reference entries of the lines, of the first 1000 lines for a longer file. |
| EnvUtils.ParserKeysHaveNoEquals | lib/utils/envutils/environment.go:69-78 | keys the parser passes hold no '=', so the parser's result equals AddTrusted as written |
| Discovery.FilterResources | lib/srv/discovery/database_watcher.go:174-184 | every kept resource is wanted, and the result is a subsequence of the input (order kept) |
| Discovery.FilterMembership | lib/srv/discovery/database_watcher.go:174-184 | a resource is in the result iff it is in the input, its origin matches (any origin when the wanted one is empty) and its discovery-group label equals the wanted group |
| Discovery.FilterKeepsMultiplicity | lib/srv/discovery/database_watcher.go:175-181 | each wanted resource occurs in the result as often as in the input; an unwanted one does not occur |
| Discovery.FilterIdempotent | lib/srv/discovery/database_watcher.go:174-184 | filtering twice with the same arguments is filtering once |
| Discovery.FilterAppend | lib/srv/discovery/database_watcher.go:175-181 | the filter of a concatenation is the concatenation of the filters |
| Discovery.OriginNarrows | lib/srv/discovery/database_watcher.go:177 | a specific origin only narrows the origin-free filter |
| Discovery.EmptyOriginIgnoresOrigin | lib/srv/discovery/database_watcher.go:177 | with an empty wanted origin, origins play no part: filtering commutes with erasing them |
| Discovery.GetAllDatabaseFetchers | lib/srv/discovery/database_watcher.go:97-107 | the static fetchers form the suffix, in their order; with them, the result holds every dynamic fetcher as often as the sets do, in any iteration order |
| Discovery.FlattenCollectsAll | lib/srv/discovery/database_watcher.go:100-104 | whatever the iteration order, the concatenated dynamic sets hold exactly the fetchers of all sets |
| Discovery.FetcherCount | lib/srv/discovery/database_watcher.go:97-107 | the number of fetchers is the total size of the dynamic sets plus the static count |
| AwsOidc.CheckAndSetDefaults | lib/integrations/awsoidc/clients.go:52-70 | succeeds iff all four fields are non-empty. Each BadParameter error is reported exactly when its field is the first empty one, in the order integration name, token, role ARN, region, and carries that field's BadParameter message ("integration name is required", "token is required", "role arn is required", "region is required"). |
| AwsOidc.CheckReportsFirstEmptyField | lib/integrations/awsoidc/clients.go:53-67 | the reported error is the one of the first empty field, by a reference definition over the ordered field list |
| AwsOidc.GetIdentityToken | lib/integrations/awsoidc/clients.go:160-162 | the token itself, unchanged, and never an error |
| AwsOidc.NewAWSConfig | lib/integrations/awsoidc/clients.go:73-94 | an invalid request fails with its validation error and a loader failure is passed on; a valid request whose load succeeds succeeds. On success, the region is loaded, the test HTTP client overrides the loaded one, and the credentials assume the role ARN with the request's token. |
| AwsOidc.ValidationPrecedesLoading | lib/integrations/awsoidc/clients.go:73-78 | an invalid request fails the same way whatever the loader would do: nothing is loaded |

## Left out

- Goroutines, channels, `sync.RWMutex`, `sync.Once` and `sync.OnceFunc` are not modelled as concurrency: each becomes an atomic step on an immutable record or a one-shot boolean.
- The AWS SDK is not modelled. `stscreds.NewWebIdentityRoleProvider`, the STS exchange, `config.LoadDefaultConfig` and `aws.Credentials.HasKeys` live in the SDK. The exchange and the loader are function arguments. `HasKeys` is taken as "access key and secret both non-empty".
- The 30-second retrieve timeout and `TokenLifetime` are left out: they only parameterise the STS call, and a timed-out call is one more failed issuer answer.
- The ticker of the refresh loop is left out: each `Poll` event is one tick, and the 30-second `refreshCheckInterval` is not tracked.
- CredentialsCache.RefreshIfNeeded: the two clock reads are independent arguments. `Retrieve` inside refreshIfNeeded reads the stored pair; since the loop is its only writer, that is the pair the step starts from.
- Logging is left out everywhere.
- File I/O is left out. The open failure, the scanned lines and the read failure of `ReadEnvironmentFile` are arguments. `os.Environ()` in `AddExecEnvironment` is an argument.
- The feature gating of `NewConfigurator`/`newConfigurator` is left out; it is business glue over services outside this model. So is the wiring from the configurator to the cache, except that `Start` stands for the cache being created and its loop started.
- `lib/teleterm/gateway/kube.go` and `lib/services/github.go` are not part of this model: they are I/O plumbing and mutable registries.
- The access-list test files are not part of this model; they exercise functions defined elsewhere.
- `startDatabaseWatchers`, `getCurrentDatabases` and the `onDatabase*` callbacks are left out: they are reconciler, watcher and access-point wiring.
- `newRDSClient` and the other client constructors are left out: they wrap `newAWSConfig` around SDK constructors.
- `types.TeleportInternalDiscoveryGroupName` and `teleport.MaxEnvironmentFileLines` are defined outside the modelled files. Their values, "teleport.internal/discovery-group-name" and 1000, are written into the model.
- EnvUtils.ToUpperChar: models `strings.ToUpper` for ASCII, Latin-1, basic Greek (accented vowels U+03AC–U+03AF and U+03CC–U+03CE included) and basic Cyrillic letters, and the two non-ASCII characters whose upper case is ASCII (U+0131, U+017F). Case mapping of other letters (Latin Extended, Armenian, Georgian and the rest) is left out. The unsafe-name test is exact, because every unsafe name is ASCII; the duplicate test is not, as the next lines say.
- EnvUtils.UnsafeKey: two names that differ only in the case of a letter outside the alphabets above (such as "Ā" and "ā") are not recognised as duplicates, where Go refuses the second.
- EnvUtils.AddUnique: misses the same duplicates as EnvUtils.UnsafeKey, for the same reason.
- EnvUtils.AddFullUnique: misses the same duplicates as EnvUtils.UnsafeKey, for the same reason; so do EnvUtils.AddFullOnlyNew, EnvUtils.AddFullUniqueAppendsNewSafe, EnvUtils.AddExecEnvironment and EnvUtils.AddChecked.
- EnvUtils.IsSpace: the white-space set is written out from Unicode's White_Space property, as `unicode.IsSpace` uses; it is not checked against a Unicode table.
- Interval.Duration: a jitter is an arbitrary function, not a random one. Its distribution is not modelled; NextFireWithinJitterBounds assumes a bound instead.
- Interval.Step: Go's `time.Time` and `time.Duration` arithmetic is exact integer arithmetic here, so 64-bit overflow is not modelled. Timer stop-and-drain in Reset and FireNow is folded into the re-arm.
- CredentialsCache.RetrieveV1: returns the stored error itself, where the adapter wraps it again with `trace.Wrap`.
- CredentialsCache.Refresh: the token error is passed on as it is, without the `trace.Wrap` around it.
- Interval.New: a non-positive Duration panics in the source; here it is a precondition.

Where the behaviour of the code differs from its descriptions, the model follows the code:

- Two `FireNow` calls in quick succession can give one tick, not two. The loop may take the second call before it sends the first tick, and then overwrites it (`Interval.FireNowTwiceCanMerge`).
- After `Stop`, the loop's `select` may still serve other ready cases before it picks the closed done channel. So "nothing after Stop" holds from the loop's exit on (`Interval.NothingAfterExit`), not from the Stop call itself.
- After a successful refresh the cache stores the issued credentials whatever their expiry. Nothing checks that they expire in the future.
- Cancelling the cache's context does not stop its loop at once. Each `select` (lines 316-321 and 328-334) may still take a ready latch or tick, and so refresh, before it takes the done channel (`CredentialsCache.CancelledLoopMayStillRefresh`). "Nothing is written after cancellation" holds only from the loop's return on (`CredentialsCache.StoppedLoopWritesNothing`).

## Findings

| source | as written | input that shows it | evidently intended | confidence | as-written member | corrected member |
|---|---|---|---|---|---|---|
| lib/utils/envutils/environment.go:128-136 | add checks the whole trimmed key against the unsafe list, but the entry "k=v" it appends sets the variable named by the text before the first '=' of k | AddTrusted("LD_PRELOAD=/tmp/x.so", "1") appends "LD_PRELOAD=/tmp/x.so=1", which sets LD_PRELOAD | refuse the entry when the name it sets is unsafe (or, with duplicate prevention, already set), as addFull does | medium; not executed | EnvUtils.AddLetsUnsafeNameThrough | EnvUtils.AddChecked |

The file parser uses the corrected add. Its keys never hold '=', so it behaves like the code as written (`EnvUtils.ParserKeysHaveNoEquals`).

=== FILE: awsoidc_clients.dfy ===
/** Validation of the request that every AWS OIDC client constructor starts
    from, the configuration built from it, and the static identity token
    handed to the STS web-identity provider.

    As everywhere in this model, a `string` is a sequence of code points.
    UTF-8 encoding is not modelled, so the conversion of the token to a
    byte slice is the identity on the sequence. */
module AwsOidc {
  import opened Wrappers

  /** An opaque HTTP client that tests may inject. */
  datatype HttpClient = HttpClient(id: nat)

  /** The fields required to set up an AWS service client. */
  datatype AWSClientRequest = AWSClientRequest(
    integrationName: string,
    token: string,
    roleARN: string,
    region: string,
    httpClient: Option<HttpClient>)

  /** The BadParameter errors of CheckAndSetDefaults, one per required field. */
  datatype ValidationError =
    | IntegrationNameRequired
    | TokenRequired
    | RoleARNRequired
    | RegionRequired
  {
    /** The message the error carries. */
    function Message(): string {
      match this
      case IntegrationNameRequired => "integration name is required"
      case TokenRequired => "token is required"
      case RoleARNRequired => "role arn is required"
      case RegionRequired => "region is required"
    }
  }

  /** The required fields in the order they are checked, each with the error
      reported when it is empty. */
  function RequiredFields(req: AWSClientRequest): seq<(string, ValidationError)> {
    [ (req.integrationName, IntegrationNameRequired),
      (req.token, TokenRequired),
      (req.roleARN, RoleARNRequired),
      (req.region, RegionRequired) ]
  }

  /** The error of the first empty field of `fields`, if any: a reference
      definition of "fixed error precedence" independent of the field names. */
  function FirstEmpty(fields: seq<(string, ValidationError)>): (r: Option<ValidationError>)
    ensures r.None? <==> forall i :: 0 <= i < |fields| ==> fields[i].0 != ""
    ensures r.Some? ==> exists i :: 0 <= i < |fields| && fields[i].0 == "" && fields[i].1 == r.value
                                    && forall j :: 0 <= j < i ==> fields[j].0 != ""
  {
    if |fields| == 0 then None
    else if fields[0].0 == "" then Some(fields[0].1)
    else
      var rest := FirstEmpty(fields[1..]);
      assert forall i :: 1 <= i < |fields| ==> fields[i] == fields[1..][i - 1];
      rest
  }

  /** CheckAndSetDefaults: `None` is Go's nil error. The request is a value,
      so the check cannot change any of its fields. */
  function CheckAndSetDefaults(req: AWSClientRequest): (err: Option<ValidationError>)
    ensures err.None? <==>
      req.integrationName != "" && req.token != "" && req.roleARN != "" && req.region != ""
    ensures err == Some(IntegrationNameRequired) <==> req.integrationName == ""
    ensures err == Some(TokenRequired) <==> req.integrationName != "" && req.token == ""
    ensures err == Some(RoleARNRequired) <==>
      req.integrationName != "" && req.token != "" && req.roleARN == ""
    ensures err == Some(RegionRequired) <==>
      req.integrationName != "" && req.token != "" && req.roleARN != "" && req.region == ""
    // the BadParameter message of each failure
    ensures req.integrationName == "" ==>
      err.Some? && err.value.Message() == "integration name is required"
    ensures req.integrationName != "" && req.token == "" ==>
      err.Some? && err.value.Message() == "token is required"
    ensures req.integrationName != "" && req.token != "" && req.roleARN == "" ==>
      err.Some? && err.value.Message() == "role arn is required"
    ensures req.integrationName != "" && req.token != "" && req.roleARN != "" && req.region == "" ==>
      err.Some? && err.value.Message() == "region is required"
  {
    if req.integrationName == "" then Some(IntegrationNameRequired)
    else if req.token == "" then Some(TokenRequired)
    else if req.roleARN == "" then Some(RoleARNRequired)
    else if req.region == "" then Some(RegionRequired)
    else None
  }

  /** The checks follow the order of RequiredFields: the reported error is
      the one of the first empty field. */
  lemma CheckReportsFirstEmptyField(req: AWSClientRequest)
    ensures CheckAndSetDefaults(req) == FirstEmpty(RequiredFields(req))
  {
    var f := RequiredFields(req);
    assert f[1..] == [f[1], f[2], f[3]];
    assert f[1..][1..] == [f[2], f[3]];
    assert f[1..][1..][1..] == [f[3]];
    assert FirstEmpty(f[1..][1..][1..][1..]) == None;
  }

  /** IdentityToken: a static token returned as-is. */
  type IdentityToken = string

  /** GetIdentityToken: the token itself (its bytes, with encoding left
      out), never an error. */
  function GetIdentityToken(t: IdentityToken): (r: Result<seq<char>, string>)
    ensures r.Success? && r.value == t
  {
    Success(t)
  }

  /** What the SDK's default loader produced: the region it was given and
      the HTTP client it chose. */
  datatype SdkConfig = SdkConfig(region: string, httpClient: Option<HttpClient>)

  /** A web-identity role provider: assumes `roleARN` with `token`. */
  datatype WebIdentityRoleProvider = WebIdentityRoleProvider(roleARN: string, token: IdentityToken)

  /** The configuration newAWSConfig returns. */
  datatype AwsConfig = AwsConfig(base: SdkConfig, credentials: WebIdentityRoleProvider)

  datatype ConfigError = Invalid(reason: ValidationError) | LoadFailed(cause: string)

  /** newAWSConfig. `load` stands for the SDK's LoadDefaultConfig given the
      request's region. */
  function NewAWSConfig(req: AWSClientRequest, load: string -> Result<SdkConfig, string>)
    : (r: Result<AwsConfig, ConfigError>)
    ensures CheckAndSetDefaults(req).Some? ==> r == Failure(Invalid(CheckAndSetDefaults(req).value))
    ensures r.Success? ==>
      && CheckAndSetDefaults(req).None?
      && load(req.region).Success?
      && r.value.credentials == WebIdentityRoleProvider(req.roleARN, req.token)
      && r.value.base.region == load(req.region).value.region
      && r.value.base.httpClient ==
           (if req.httpClient.Some? then req.httpClient else load(req.region).value.httpClient)
    ensures CheckAndSetDefaults(req).None? && load(req.region).Failure? ==>
      r == Failure(LoadFailed(load(req.region).error))
    ensures CheckAndSetDefaults(req).None? && load(req.region).Success? ==> r.Success?
  {
    match CheckAndSetDefaults(req)
    case Some(e) => Failure(Invalid(e))
    case None =>
      match load(req.region)
      case Failure(cause) => Failure(LoadFailed(cause))
      case Success(cfg) =>
        var base := if req.httpClient.Some? then cfg.(httpClient := req.httpClient) else cfg;
        Success(AwsConfig(base, WebIdentityRoleProvider(req.roleARN, GetIdentityToken(req.token).value)))
  }

  /** Validation comes before loading: an invalid request fails the same way
      whatever the loader would have done, so no configuration is loaded. */
  lemma ValidationPrecedesLoading(req: AWSClientRequest,
                                  load1: string -> Result<SdkConfig, string>,
                                  load2: string -> Result<SdkConfig, string>)
    requires CheckAndSetDefaults(req).Some?
    ensures NewAWSConfig(req, load1) == NewAWSConfig(req, load2)
    ensures NewAWSConfig(req, load1).Failure? && NewAWSConfig(req, load1).error.Invalid?
  {
  }
}

=== FILE: credentials_cache.dfy ===
/** The credentials cache of the External Cloud Audit configurator.

    The cache holds one (credentials, error) pair. A background loop waits
    until the OIDC token source is attached, then refreshes immediately and
    again on every poll, deciding each time whether to keep the cached
    credentials, install new ones, or install the issuer's error. Locks,
    channels and `sync.OnceFunc` become atomic steps on an immutable record
    and two one-shot booleans; the clock is an integer (nanoseconds) and
    the issuer's outcome is an argument. */
module CredentialsCache {
  import opened Wrappers

  const Second: int := 1_000_000_000
  const Minute: int := 60 * Second

  /** Credentials are refreshed once fewer than this many nanoseconds of
      validity remain. */
  const RefreshBeforeExpiration: int := 15 * Minute

  /** The fields of aws.Credentials the cache and the v1 adapter read.
      `expires` is a point in time, in nanoseconds. */
  datatype Credentials = Credentials(
    accessKeyId: string,
    secretAccessKey: string,
    sessionToken: string,
    source: string,
    expires: int)

  /** The zero value aws.Credentials{}. */
  const EmptyCredentials: Credentials := Credentials("", "", "", "", 0)

  /** aws.Credentials.HasKeys: both the access key and the secret are set. */
  predicate HasKeys(c: Credentials) {
    |c.accessKeyId| > 0 && |c.secretAccessKey| > 0
  }

  /** The errors the cache can hold: the placeholder installed at
      construction, and an issuer failure wrapped by trace.Wrap. */
  datatype Error = NotInitialized | Wrapped(cause: string)

  /** credsOrErr; `err == None` is Go's nil error. */
  datatype CredsOrErr = CredsOrErr(creds: Credentials, err: Option<Error>)

  /** The value a new cache holds. */
  const Placeholder: CredsOrErr := CredsOrErr(EmptyCredentials, Some(NotInitialized))

  /** The cache: the stored pair, the latch closed when the token source is
      attached, and the latch closed by the first write. */
  datatype Cache = Cache(stored: CredsOrErr, initialized: bool, gotFirst: bool)

  /** What every reachable cache satisfies: an error is never stored beside
      credentials, and the placeholder error is there exactly until the
      first write. */
  ghost predicate Valid(c: Cache) {
    && (c.stored.err.Some? ==> c.stored.creds == EmptyCredentials)
    && (c.stored.err == Some(NotInitialized) <==> !c.gotFirst)
    && (!c.gotFirst ==> c.stored == Placeholder)
  }

  /** newCredentialsCache. */
  function NewCache(): (c: Cache)
    ensures c.stored.creds == EmptyCredentials && c.stored.err == Some(NotInitialized)
    ensures !c.initialized && !c.gotFirst
    ensures Valid(c)
  {
    Cache(Placeholder, false, false)
  }

  /** setGenerateOIDCTokenFn: closes the initialized latch (once; later
      calls leave it closed). Nothing else changes. */
  function SetGenerateOIDCTokenFn(c: Cache): (r: Cache)
    ensures r.initialized && r.stored == c.stored && r.gotFirst == c.gotFirst
    ensures Valid(c) ==> Valid(r)
  {
    c.(initialized := true)
  }

  /** Retrieve: the stored credentials and error, as they are. */
  function Retrieve(c: Cache): (r: (Credentials, Option<Error>))
    ensures r.0 == c.stored.creds && r.1 == c.stored.err
  {
    (c.stored.creds, c.stored.err)
  }

  /** setCredsOrErr: replaces the stored pair and closes the first-result
      latch. */
  function SetCredsOrErr(c: Cache, coe: CredsOrErr): (r: Cache)
    ensures r.stored == coe && r.gotFirst && r.initialized == c.initialized
  {
    c.(stored := coe, gotFirst := true)
  }

  /** The cached credentials are good for more than the safety margin, so
      no refresh is attempted. */
  predicate FreshEnough(stored: CredsOrErr, now: int) {
    stored.err.None? && HasKeys(stored.creds) && now + RefreshBeforeExpiration < stored.creds.expires
  }

  /** The cached credentials can still be used, even inside the margin. */
  predicate StillValid(creds: Credentials, now: int) {
    HasKeys(creds) && now < creds.expires
  }

  /** identityToken: the OIDC token, handed to the STS web-identity
      provider as it is. */
  type IdentityToken = string

  /** refresh: ask the token source for an OIDC token, then exchange it at
      STS for credentials. `token` is the token source's answer and `sts`
      the exchange; a token failure is returned without any exchange. */
  function Refresh(token: Result<string, string>, sts: IdentityToken -> Result<Credentials, string>)
    : (r: Result<Credentials, string>)
    ensures token.Failure? ==> r == Failure(token.error)
    ensures token.Success? ==> r == sts(token.value)
  {
    match token
    case Failure(e) => Failure(e)
    case Success(t) => sts(t)
  }

  /** A failed token request decides the outcome whatever STS would do. */
  lemma TokenFailureSkipsExchange(token: Result<string, string>,
                                  sts1: IdentityToken -> Result<Credentials, string>,
                                  sts2: IdentityToken -> Result<Credentials, string>)
    requires token.Failure?
    ensures Refresh(token, sts1) == Refresh(token, sts2) == Failure(token.error)
  {
  }

  /** One refresh decision: the cache afterwards, and whether the issuer
      was called. */
  datatype RefreshStep = RefreshStep(cache: Cache, issuerCalled: bool)

  /** refreshIfNeeded. The clock is read twice: `now` before deciding
      whether to refresh, and `later` after a failed refresh has returned,
      to decide whether the cached credentials are still usable. `issued`
      is what the issuer answers if it is called: the value of Refresh for
      this poll's token and STS exchange. The wall clock that
      expiry times are compared against can be set back, so nothing orders
      the two reads. */
  function RefreshIfNeeded(c: Cache, now: int, later: int, issued: Result<Credentials, string>)
    : (r: RefreshStep)
    ensures FreshEnough(c.stored, now) ==> r.cache == c && !r.issuerCalled
    ensures !FreshEnough(c.stored, now) ==> r.issuerCalled
    ensures !FreshEnough(c.stored, now) && issued.Success? ==>
      r.cache.stored == CredsOrErr(issued.value, None)
    ensures !FreshEnough(c.stored, now) && issued.Failure? && StillValid(c.stored.creds, later) ==>
      r.cache == c
    ensures !FreshEnough(c.stored, now) && issued.Failure? && !StillValid(c.stored.creds, later) ==>
      r.cache.stored == CredsOrErr(EmptyCredentials, Some(Wrapped(issued.error)))
    ensures r.cache.stored != c.stored ==> r.cache.gotFirst
    ensures r.cache.initialized == c.initialized && (c.gotFirst ==> r.cache.gotFirst)
  {
    if FreshEnough(c.stored, now) then RefreshStep(c, false)
    else
      match issued
      case Success(creds) => RefreshStep(SetCredsOrErr(c, CredsOrErr(creds, None)), true)
      case Failure(e) =>
        if StillValid(c.stored.creds, later) then RefreshStep(c, true)
        else RefreshStep(SetCredsOrErr(c, CredsOrErr(EmptyCredentials, Some(Wrapped(e)))), true)
  }

  /** A refresh keeps the cache valid. */
  lemma RefreshPreservesValid(c: Cache, now: int, later: int, issued: Result<Credentials, string>)
    requires Valid(c)
    ensures Valid(RefreshIfNeeded(c, now, later, issued).cache)
  {
  }

  /** The fallback rule: credentials that are still usable when a failed
      refresh returns are never replaced by an error. Whatever the issuer
      answers, the cache afterwards serves either the same credentials or
      newer ones, with no error. */
  lemma NeverDiscardsUsableCredentials(c: Cache, now: int, later: int, issued: Result<Credentials, string>)
    requires Valid(c)
    requires StillValid(c.stored.creds, later)
    ensures var r := Retrieve(RefreshIfNeeded(c, now, later, issued).cache);
      && r.1 == c.stored.err == None
      && (r.0 == c.stored.creds || (issued.Success? && r.0 == issued.value))
  {
  }

  /** The second clock read decides: credentials that were still usable
      when the poll began but have expired by the time the failed refresh
      returns are replaced by the error. */
  lemma ExpiryDuringRefreshInstallsError(c: Cache, now: int, cause: string)
    requires c.stored.err.None? && HasKeys(c.stored.creds)
    requires c.stored.creds.expires == now + 10 * Second
    ensures StillValid(c.stored.creds, now)
    ensures RefreshIfNeeded(c, now, now + 30 * Second, Failure(cause)).cache.stored ==
      CredsOrErr(EmptyCredentials, Some(Wrapped(cause)))
  {
  }

  /** The cache never holds credentials with keys together with an error. */
  lemma NoKeysBesideError(c: Cache)
    requires Valid(c)
    ensures c.stored.err.Some? ==> !HasKeys(c.stored.creds)
  {
  }

  /** waitForFirstCredsOrErr returns when the context is cancelled or the
      first result has been recorded, whichever comes first. */
  predicate WaitForFirstCredsOrErrReturns(c: Cache, cancelled: bool) {
    cancelled || c.gotFirst
  }

  /** Where the refresh loop is: waiting for the token source, polling, or
      returned. */
  datatype Phase = AwaitingIssuer | Polling | Stopped

  /** The cache together with its background loop, and whether the loop's
      context has been cancelled. */
  datatype System = System(cache: Cache, phase: Phase, cancelled: bool)

  /** What can happen: the token source is attached; the owning context is
      cancelled; the loop takes the cancellation and returns; or the loop
      wakes (on the initialized latch, then on every ticker tick) with the
      two clock reads and the issuer's answer at hand. A select with
      several ready cases picks any of them, so a cancelled loop may still
      take a ready latch or tick before it returns. */
  datatype Event =
    | SetIssuer
    | Cancel
    | Exit
    | Poll(now: int, later: int, issued: Result<Credentials, string>)

  /** A new cache with its loop started (newConfigurator starts `run`). */
  function Start(): (s: System)
    ensures s.cache == NewCache() && s.phase == AwaitingIssuer && !s.cancelled
  {
    System(NewCache(), AwaitingIssuer, false)
  }

  /** The loop's reaction to one event. While awaiting the token source the
      loop wakes only once the latch is closed, and then refreshes at once;
      it returns only once its context is cancelled, and a returned loop
      does nothing more. */
  function Step(s: System, e: Event): (r: System)
    ensures e.SetIssuer? ==>
      && r.cache.initialized && r.cache.stored == s.cache.stored && r.cache.gotFirst == s.cache.gotFirst
      && r.phase == s.phase && r.cancelled == s.cancelled
    ensures e.Cancel? ==> r.cancelled && r.cache == s.cache && r.phase == s.phase
    ensures e.Exit? ==> r.cache == s.cache && r.cancelled == s.cancelled
    ensures e.Exit? && s.cancelled ==> r.phase == Stopped
    ensures e.Exit? && !s.cancelled ==> r == s
    ensures s.cancelled ==> r.cancelled
    ensures s.phase == Stopped ==> r.phase == Stopped && r.cache.stored == s.cache.stored
                                   && r.cache.gotFirst == s.cache.gotFirst
    ensures e.Poll? && s.phase == AwaitingIssuer && !s.cache.initialized ==> r == s
    ensures e.Poll? && s.phase == Stopped ==> r == s
    ensures e.Poll? && (s.phase == Polling || (s.phase == AwaitingIssuer && s.cache.initialized)) ==>
      r == System(RefreshIfNeeded(s.cache, e.now, e.later, e.issued).cache, Polling, s.cancelled)
  {
    match e
    case SetIssuer => s.(cache := SetGenerateOIDCTokenFn(s.cache))
    case Cancel => s.(cancelled := true)
    case Exit => if s.cancelled then s.(phase := Stopped) else s
    case Poll(now, later, issued) =>
      match s.phase
      case Stopped => s
      case AwaitingIssuer =>
        if s.cache.initialized then s.(cache := RefreshIfNeeded(s.cache, now, later, issued).cache, phase := Polling)
        else s
      case Polling => s.(cache := RefreshIfNeeded(s.cache, now, later, issued).cache)
  }

  /** The system after a sequence of events. */
  function Run(s: System, events: seq<Event>): System
    decreases |events|
  {
    if |events| == 0 then s else Run(Step(s, events[0]), events[1..])
  }

  lemma {:induction false} RunAppend(s: System, a: seq<Event>, b: seq<Event>)
    ensures Run(s, a + b) == Run(Run(s, a), b)
    decreases |a|
  {
    if |a| == 0 {
      assert a + b == b;
    } else {
      assert (a + b)[1..] == a[1..] + b;
      RunAppend(Step(s, a[0]), a[1..], b);
    }
  }

  /** Every reachable cache is valid. */
  lemma {:induction false} RunPreservesValid(s: System, events: seq<Event>)
    requires Valid(s.cache)
    ensures Valid(Run(s, events).cache)
    decreases |events|
  {
    if |events| > 0 {
      var e := events[0];
      if e.Poll? {
        RefreshPreservesValid(s.cache, e.now, e.later, e.issued);
      }
      RunPreservesValid(Step(s, e), events[1..]);
    }
  }

  /** Both latches and the cancellation are one-shot: once closed they stay
      closed. */
  lemma {:induction false} LatchesNeverReopen(s: System, events: seq<Event>)
    ensures s.cache.initialized ==> Run(s, events).cache.initialized
    ensures s.cache.gotFirst ==> Run(s, events).cache.gotFirst
    ensures s.cancelled ==> Run(s, events).cancelled
    decreases |events|
  {
    if |events| > 0 {
      LatchesNeverReopen(Step(s, events[0]), events[1..]);
    }
  }

  /** Without SetIssuer the initialized latch stays open, and a loop that
      is not yet polling writes nothing. */
  lemma NothingHappensWithoutIssuerStep(s: System, e: Event)
    requires !s.cache.initialized && !e.SetIssuer?
    ensures !Step(s, e).cache.initialized
    ensures s.phase != Polling ==>
      && Step(s, e).phase != Polling
      && Step(s, e).cache.stored == s.cache.stored
      && Step(s, e).cache.gotFirst == s.cache.gotFirst
  {
  }

  /** Before the token source is attached, Retrieve answers with empty
      credentials and the "not yet initialized" error, never a success. */
  lemma {:induction false} RetrieveBeforeAttach(events: seq<Event>)
    requires forall i :: 0 <= i < |events| ==> !events[i].SetIssuer?
    ensures Retrieve(Run(Start(), events).cache) == (EmptyCredentials, Some(NotInitialized))
    ensures !WaitForFirstCredsOrErrReturns(Run(Start(), events).cache, false)
  {
    NothingHappensWithoutIssuerLoop(Start(), events);
  }

  /** NothingHappensWithoutIssuer for a loop that has not started polling. */
  lemma {:induction false} NothingHappensWithoutIssuerLoop(s: System, events: seq<Event>)
    requires !s.cache.initialized && s.phase != Polling
    requires forall i :: 0 <= i < |events| ==> !events[i].SetIssuer?
    ensures Run(s, events).phase != Polling
    ensures Run(s, events).cache.stored == s.cache.stored
    ensures Run(s, events).cache.gotFirst == s.cache.gotFirst
    decreases |events|
  {
    if |events| > 0 {
      NothingHappensWithoutIssuerStep(s, events[0]);
      NothingHappensWithoutIssuerLoop(Step(s, events[0]), events[1..]);
    }
  }

  /** A returned loop never writes again. */
  lemma {:induction false} StoppedLoopWritesNothing(s: System, events: seq<Event>)
    requires s.phase == Stopped
    ensures Run(s, events).phase == Stopped
    ensures Run(s, events).cache.stored == s.cache.stored
    ensures Run(s, events).cache.gotFirst == s.cache.gotFirst
    decreases |events|
  {
    if |events| > 0 {
      StoppedLoopWritesNothing(Step(s, events[0]), events[1..]);
    }
  }

  /** Once the context is cancelled it stays cancelled. */
  lemma CancelledFromThenOn(s: System, events: seq<Event>, j: nat)
    requires j < |events| && events[j].Cancel?
    ensures Run(s, events).cancelled
  {
    var before := events[..j];
    assert events == before + [events[j]] + events[j + 1..];
    RunAppend(s, before, [events[j]]);
    RunAppend(s, before + [events[j]], events[j + 1..]);
    var mid := Run(s, before);
    assert Run(mid, [events[j]]) == Step(mid, events[j]);
    LatchesNeverReopen(Step(mid, events[j]), events[j + 1..]);
  }

  /** If the loop returns before the token source is attached, it never
      refreshes: the cache keeps its placeholder forever and waiters are
      released only by their own cancellation. */
  lemma ExitBeforeAttachMeansNoRefresh(events: seq<Event>, j: nat, k: nat)
    requires j < k < |events| && events[j].Cancel? && events[k].Exit?
    requires forall i :: 0 <= i < k ==> !events[i].SetIssuer?
    ensures Run(Start(), events).cache.stored == Placeholder
    ensures !Run(Start(), events).cache.gotFirst
  {
    var before := events[..k];
    assert events == before + [events[k]] + events[k + 1..];
    assert forall i :: 0 <= i < |before| ==> !before[i].SetIssuer?;
    NothingHappensWithoutIssuerLoop(Start(), before);
    CancelledFromThenOn(Start(), before, j);
    var mid := Run(Start(), before);
    RunAppend(Start(), before, [events[k]]);
    RunAppend(Start(), before + [events[k]], events[k + 1..]);
    assert Run(mid, [events[k]]) == Step(mid, events[k]);
    StoppedLoopWritesNothing(Step(mid, events[k]), events[k + 1..]);
  }

  /** Cancellation does not stop the loop by itself: a latch or tick that
      is ready when the context is cancelled can still be taken, and the
      refresh it runs can install an error. */
  lemma CancelledLoopMayStillRefresh(now: int, later: int, cause: string)
    ensures var s := Run(Start(), [SetIssuer, Cancel, Poll(now, later, Failure(cause))]);
      && s.cancelled
      && s.cache.stored == CredsOrErr(EmptyCredentials, Some(Wrapped(cause)))
      && s.cache.gotFirst
  {
    var p := Poll(now, later, Failure(cause));
    var s1 := Step(Start(), SetIssuer);
    var s2 := Step(s1, Cancel);
    var s3 := Step(s2, p);
    assert [SetIssuer, Cancel, p][1..] == [Cancel, p];
    assert [Cancel, p][1..] == [p];
    assert [p][1..] == [];
    assert Run(s3, []) == s3;
    assert Run(s2, [p]) == s3;
    assert Run(s1, [Cancel, p]) == s3;
  }

  /** A first refresh that fails still releases the waiters, and Retrieve
      then reports that failure: waiting is for a result, not for success. */
  lemma FirstFailureReleasesWaiters(s: System, now: int, later: int, cause: string)
    requires s.phase == AwaitingIssuer && s.cache.initialized && s.cache.stored == Placeholder
    ensures var r := Step(s, Poll(now, later, Failure(cause)));
      && WaitForFirstCredsOrErrReturns(r.cache, false)
      && Retrieve(r.cache) == (EmptyCredentials, Some(Wrapped(cause)))
  {
  }

  /** Stale but usable credentials survive a failed poll: after a success
      at one poll and a failure at the next, Retrieve still answers with the
      first poll's credentials while they have not expired when the failed
      refresh returns. */
  lemma StaleButValidServed(s: System, t1: int, l1: int, creds: Credentials, t2: int, l2: int, cause: string)
    requires s.phase == Polling
    requires HasKeys(creds) && l2 < creds.expires
    ensures var s1 := Step(s, Poll(t1, l1, Success(creds)));
      var s2 := Step(s1, Poll(t2, l2, Failure(cause)));
      Retrieve(s2.cache) == (creds, None) || (FreshEnough(s.cache.stored, t1) && s1 == s)
  {
  }

  /** The value aws-sdk-go (v1) sees: credentials.Value. */
  datatype ValueV1 = ValueV1(accessKeyId: string, secretAccessKey: string, sessionToken: string, providerName: string)

  const ZeroValueV1: ValueV1 := ValueV1("", "", "", "")

  /** v1Adapter.RetrieveWithContext (and Retrieve, which calls it): the zero
      value and the error when the cache holds an error, otherwise the
      cached credentials field by field. */
  function RetrieveV1(c: Cache): (r: (ValueV1, Option<Error>))
    ensures c.stored.err.Some? ==> r == (ZeroValueV1, c.stored.err)
    ensures c.stored.err.None? ==>
      && r.1.None?
      && r.0.accessKeyId == c.stored.creds.accessKeyId
      && r.0.secretAccessKey == c.stored.creds.secretAccessKey
      && r.0.sessionToken == c.stored.creds.sessionToken
      && r.0.providerName == c.stored.creds.source
  {
    var (creds, err) := Retrieve(c);
    if err.Some? then (ZeroValueV1, err)
    else (ValueV1(creds.accessKeyId, creds.secretAccessKey, creds.sessionToken, creds.source), None)
  }

  /** v1Adapter.IsExpired: always expired, so the v1 SDK never caches and
      every use reads through to the cache. */
  function IsExpiredV1(): (expired: bool)
    ensures expired
  {
    true
  }
}

=== FILE: database_watcher.dfy ===
/** The pure parts of the database watcher of the discovery service: the
    filter that picks, out of the databases in the cache, the cloud ones
    that belong to this service's discovery group, and the list of all
    database fetchers, dynamic then static. */
module Discovery {
  import opened Sequences

  // ---------------------------------------------------------------------
  // filterResources

  /** types.TeleportInternalDiscoveryGroupName: the label naming the
      discovery group that created a resource. */
  const DiscoveryGroupLabel: string := "teleport.internal/discovery-group-name"

  /** A resource with labels: its name, its origin and its labels. */
  datatype Resource = Resource(name: string, origin: string, labels: map<string, string>)

  /** GetLabel of the discovery-group label; a missing label reads as "". */
  function GroupOf(r: Resource): string {
    if DiscoveryGroupLabel in r.labels then r.labels[DiscoveryGroupLabel] else ""
  }

  /** The test filterResources keeps a resource by: its origin is
      `wantOrigin`, unless that is empty, and its discovery group is
      `wantGroup`. */
  predicate Wanted(x: Resource, wantOrigin: string, wantGroup: string) {
    (wantOrigin == "" || x.origin == wantOrigin) && GroupOf(x) == wantGroup
  }

  /** filterResources: the wanted resources, in their original order. */
  function FilterResources(all: seq<Resource>, wantOrigin: string, wantGroup: string)
    : (filtered: seq<Resource>)
    ensures forall i :: 0 <= i < |filtered| ==> Wanted(filtered[i], wantOrigin, wantGroup)
    ensures IsSubsequence(filtered, all)
    decreases |all|
  {
    if |all| == 0 then []
    else
      var rest := FilterResources(all[1..], wantOrigin, wantGroup);
      var x := all[0];
      if (wantOrigin != "" && x.origin != wantOrigin) || GroupOf(x) != wantGroup then
        SubsequenceSkip(rest, all);
        rest
      else
        assert ([x] + rest)[1..] == rest;
        [x] + rest
  }

  /** Each resource occurs in the result exactly as often as in the input
      when it is wanted, and not at all otherwise. */
  lemma {:induction false} FilterKeepsMultiplicity(all: seq<Resource>, wantOrigin: string,
                                                   wantGroup: string, x: Resource)
    ensures multiset(FilterResources(all, wantOrigin, wantGroup))[x] ==
      if Wanted(x, wantOrigin, wantGroup) then multiset(all)[x] else 0
    decreases |all|
  {
    if |all| > 0 {
      FilterKeepsMultiplicity(all[1..], wantOrigin, wantGroup, x);
      assert all == [all[0]] + all[1..];
      assert multiset(all) == multiset{all[0]} + multiset(all[1..]);
      var rest := FilterResources(all[1..], wantOrigin, wantGroup);
      assert multiset([all[0]] + rest) == multiset{all[0]} + multiset(rest);
    }
  }

  /** A resource is in the result exactly when it is in the input and
      wanted. */
  lemma FilterMembership(all: seq<Resource>, wantOrigin: string, wantGroup: string, x: Resource)
    ensures x in FilterResources(all, wantOrigin, wantGroup) <==>
      x in all && (wantOrigin == "" || x.origin == wantOrigin) && GroupOf(x) == wantGroup
  {
    FilterKeepsMultiplicity(all, wantOrigin, wantGroup, x);
    assert x in all <==> multiset(all)[x] > 0;
    var f := FilterResources(all, wantOrigin, wantGroup);
    assert x in f <==> multiset(f)[x] > 0;
  }

  /** Filtering twice with the same arguments is filtering once. */
  lemma {:induction false} FilterIdempotent(all: seq<Resource>, wantOrigin: string, wantGroup: string)
    ensures var once := FilterResources(all, wantOrigin, wantGroup);
      FilterResources(once, wantOrigin, wantGroup) == once
    decreases |all|
  {
    if |all| > 0 {
      FilterIdempotent(all[1..], wantOrigin, wantGroup);
      var rest := FilterResources(all[1..], wantOrigin, wantGroup);
      var once := FilterResources(all, wantOrigin, wantGroup);
      if once != rest {
        assert once == [all[0]] + rest;
        assert once[1..] == rest;
      }
    }
  }

  /** Filtering distributes over concatenation: each resource is judged on
      its own. */
  lemma {:induction false} FilterAppend(a: seq<Resource>, b: seq<Resource>, wantOrigin: string,
                                        wantGroup: string)
    ensures FilterResources(a + b, wantOrigin, wantGroup) ==
      FilterResources(a, wantOrigin, wantGroup) + FilterResources(b, wantOrigin, wantGroup)
    decreases |a|
  {
    if |a| == 0 {
      assert a + b == b;
    } else {
      assert (a + b)[0] == a[0] && (a + b)[1..] == a[1..] + b;
      FilterAppend(a[1..], b, wantOrigin, wantGroup);
    }
  }

  /** A specific origin only narrows: it is the origin-free filter followed
      by the origin check. */
  lemma {:induction false} OriginNarrows(all: seq<Resource>, wantOrigin: string, wantGroup: string)
    ensures FilterResources(all, wantOrigin, wantGroup) ==
      FilterResources(FilterResources(all, "", wantGroup), wantOrigin, wantGroup)
    decreases |all|
  {
    if |all| > 0 {
      OriginNarrows(all[1..], wantOrigin, wantGroup);
      var rest := FilterResources(all[1..], "", wantGroup);
      if GroupOf(all[0]) == wantGroup {
        assert FilterResources(all, "", wantGroup) == [all[0]] + rest;
        assert ([all[0]] + rest)[1..] == rest;
      }
    }
  }

  /** A resource with its origin erased. */
  function EraseOrigin(x: Resource): Resource {
    x.(origin := "")
  }

  /** The resources with their origins erased. */
  function EraseOrigins(all: seq<Resource>): (r: seq<Resource>)
    ensures |r| == |all|
    ensures forall i :: 0 <= i < |all| ==> r[i] == EraseOrigin(all[i])
    decreases |all|
  {
    if |all| == 0 then [] else [EraseOrigin(all[0])] + EraseOrigins(all[1..])
  }

  /** With an empty wanted origin, origins play no part: filtering commutes
      with erasing them. */
  lemma {:induction false} EmptyOriginIgnoresOrigin(all: seq<Resource>, wantGroup: string)
    ensures EraseOrigins(FilterResources(all, "", wantGroup)) ==
      FilterResources(EraseOrigins(all), "", wantGroup)
    decreases |all|
  {
    if |all| > 0 {
      EmptyOriginIgnoresOrigin(all[1..], wantGroup);
      var erased := EraseOrigins(all);
      assert erased == [EraseOrigin(all[0])] + EraseOrigins(all[1..]);
      assert erased[0] == EraseOrigin(all[0]) && erased[1..] == EraseOrigins(all[1..]);
      assert GroupOf(EraseOrigin(all[0])) == GroupOf(all[0]);
    }
  }

  // ---------------------------------------------------------------------
  // getAllDatabaseFetchers

  /** A fetcher, known only by identity. */
  datatype Fetcher = Fetcher(id: nat)

  /** The dynamic fetcher sets, keyed by discovery config name. */
  type DynamicFetchers = map<string, seq<Fetcher>>

  /** `order` is an order in which Go's range may visit the keys of
      `dynamic`: each key once. Go leaves the order unspecified, so it is
      an argument. */
  ghost predicate IterationOrder(dynamic: DynamicFetchers, order: seq<string>) {
    && (forall k :: k in dynamic <==> k in order)
    && (forall i, j :: 0 <= i < j < |order| ==> order[i] != order[j])
  }

  /** The sets of the keys in `order`, concatenated in that order. */
  function Flatten(dynamic: DynamicFetchers, order: seq<string>): seq<Fetcher>
    requires forall k :: k in order ==> k in dynamic
    decreases |order|
  {
    if |order| == 0 then [] else dynamic[order[0]] + Flatten(dynamic, order[1..])
  }

  /** getAllDatabaseFetchers: every dynamic set, in iteration order, then
      the static fetchers. */
  function GetAllDatabaseFetchers(dynamic: DynamicFetchers, order: seq<string>,
                                  staticFetchers: seq<Fetcher>): (all: seq<Fetcher>)
    requires IterationOrder(dynamic, order)
    ensures |staticFetchers| <= |all| && all[|all| - |staticFetchers|..] == staticFetchers
    ensures multiset(all) == AllDynamic(dynamic) + multiset(staticFetchers)
  {
    var d := Flatten(dynamic, order);
    FlattenCollectsAll(dynamic, order);
    assert (d + staticFetchers)[|d|..] == staticFetchers;
    d + staticFetchers
  }

  /** Every fetcher of every dynamic set, counted with multiplicity: a
      reference definition that does not depend on an iteration order. */
  ghost function AllDynamic(dynamic: DynamicFetchers): multiset<Fetcher>
    decreases |dynamic.Keys|
  {
    if |dynamic.Keys| == 0 then multiset{}
    else
      var k :| k in dynamic.Keys;
      RemoveKeyShrinks(dynamic, k);
      multiset(dynamic[k]) + AllDynamic(dynamic - {k})
  }

  lemma RemoveKeyShrinks(dynamic: DynamicFetchers, k: string)
    requires k in dynamic
    ensures (dynamic - {k}).Keys == dynamic.Keys - {k}
    ensures |(dynamic - {k}).Keys| == |dynamic.Keys| - 1
  {
    assert (dynamic - {k}).Keys == dynamic.Keys - {k};
  }

  /** AllDynamic may take out any key first. */
  lemma {:induction false} AllDynamicRemove(dynamic: DynamicFetchers, k: string)
    requires k in dynamic
    ensures AllDynamic(dynamic) == multiset(dynamic[k]) + AllDynamic(dynamic - {k})
    decreases |dynamic.Keys|
  {
    var j :| j in dynamic.Keys && AllDynamic(dynamic) == multiset(dynamic[j]) + AllDynamic(dynamic - {j});
    if j != k {
      RemoveKeyShrinks(dynamic, j);
      RemoveKeyShrinks(dynamic, k);
      AllDynamicRemove(dynamic - {j}, k);
      AllDynamicRemove(dynamic - {k}, j);
      RemoveTwo(dynamic, j, k);
    }
  }

  /** Removing two keys in either order gives the same map. */
  lemma RemoveTwo(dynamic: DynamicFetchers, j: string, k: string)
    requires j in dynamic && k in dynamic && j != k
    ensures (dynamic - {j}) - {k} == (dynamic - {k}) - {j}
    ensures (dynamic - {j})[k] == dynamic[k] && (dynamic - {k})[j] == dynamic[j]
  {
  }

  /** Flatten only reads the sets of the keys it lists. */
  lemma {:induction false} FlattenReadsListed(d1: DynamicFetchers, d2: DynamicFetchers, order: seq<string>)
    requires forall k :: k in order ==> k in d1 && k in d2 && d1[k] == d2[k]
    ensures Flatten(d1, order) == Flatten(d2, order)
    decreases |order|
  {
    if |order| > 0 {
      FlattenReadsListed(d1, d2, order[1..]);
    }
  }

  /** Whatever the iteration order, the flattened dynamic sets hold every
      dynamic fetcher exactly as often as the sets do. */
  lemma {:induction false} FlattenCollectsAll(dynamic: DynamicFetchers, order: seq<string>)
    requires IterationOrder(dynamic, order)
    ensures multiset(Flatten(dynamic, order)) == AllDynamic(dynamic)
    decreases |order|
  {
    if |order| == 0 {
      assert dynamic.Keys == {};
    } else {
      var k := order[0];
      var rest := dynamic - {k};
      assert IterationOrder(rest, order[1..]) by {
        forall x ensures x in rest <==> x in order[1..] {
          if x in order[1..] {
            var i :| 0 <= i < |order[1..]| && order[1..][i] == x;
            assert order[i + 1] == x;
          }
        }
        forall i, j | 0 <= i < j < |order[1..]| ensures order[1..][i] != order[1..][j] {
          assert order[1..][i] == order[i + 1] && order[1..][j] == order[j + 1];
        }
      }
      FlattenCollectsAll(rest, order[1..]);
      FlattenReadsListed(rest, dynamic, order[1..]);
      AllDynamicRemove(dynamic, k);
    }
  }

  /** The number of fetchers returned is the total size of the dynamic sets
      plus the number of static ones, in any iteration order. */
  lemma FetcherCount(dynamic: DynamicFetchers, order: seq<string>, staticFetchers: seq<Fetcher>)
    requires IterationOrder(dynamic, order)
    ensures |GetAllDatabaseFetchers(dynamic, order, staticFetchers)| == |AllDynamic(dynamic)| + |staticFetchers|
  {
    var all := GetAllDatabaseFetchers(dynamic, order, staticFetchers);
    assert |multiset(all)| == |all|;
  }
}

=== FILE: envutils.dfy ===
/** SafeEnv, an environment (a sequence of "KEY=VALUE" entries) built while
    refusing the dynamic-loader variables, and the line rules of
    ReadEnvironmentFile.

    Strings are sequences of code points. Go's strings.TrimSpace and
    strings.ToUpper work on Unicode; the model trims every Unicode white
    space character and upper-cases the alphabets ToUpperChar lists. */
module EnvUtils {
  import opened Wrappers
  import opened Sequences

  // ---------------------------------------------------------------------
  // String primitives

  /** unicode.IsSpace. */
  predicate IsSpace(c: char) {
    var n := c as int;
    || 9 <= n <= 13 || n == 0x20 || n == 0x85 || n == 0xA0 || n == 0x1680
    || 0x2000 <= n <= 0x200A || n == 0x2028 || n == 0x2029 || n == 0x202F
    || n == 0x205F || n == 0x3000
  }

  /** The end of the run of white space in `s` that starts at `i`. */
  function SpaceRunEnd(s: string, i: nat): (n: nat)
    requires i <= |s|
    ensures i <= n <= |s|
    ensures forall j :: i <= j < n ==> IsSpace(s[j])
    ensures n < |s| ==> !IsSpace(s[n])
    decreases |s| - i
  {
    if i < |s| && IsSpace(s[i]) then SpaceRunEnd(s, i + 1) else i
  }

  /** The start of the run of white space in `s[lo..]` that ends at `i`. */
  function SpaceRunStart(s: string, lo: nat, i: nat): (m: nat)
    requires lo <= i <= |s|
    ensures lo <= m <= i
    ensures forall j :: m <= j < i ==> IsSpace(s[j])
    ensures m > lo ==> !IsSpace(s[m - 1])
    decreases i
  {
    if i > lo && IsSpace(s[i - 1]) then SpaceRunStart(s, lo, i - 1) else i
  }

  /** strings.TrimSpace: the leading white space is dropped (TrimLeft), then
      the trailing white space of what is left (TrimRight). */
  function TrimSpace(s: string): (r: string)
    ensures |r| == 0 || (!IsSpace(r[0]) && !IsSpace(r[|r| - 1]))
    ensures |s| > 0 && !IsSpace(s[0]) && !IsSpace(s[|s| - 1]) ==> r == s
    ensures |r| == 0 <==> forall i :: 0 <= i < |s| ==> IsSpace(s[i])
  {
    var a := SpaceRunEnd(s, 0);
    s[a..SpaceRunStart(s, a, |s|)]
  }

  /** Only white space is removed, and only at the two ends. */
  lemma TrimSpaceRemovesOnlyEndSpace(s: string)
    ensures exists a, b ::
      && 0 <= a <= b <= |s| && TrimSpace(s) == s[a..b]
      && (forall i :: 0 <= i < a ==> IsSpace(s[i]))
      && (forall i :: b <= i < |s| ==> IsSpace(s[i]))
  {
    var a := SpaceRunEnd(s, 0);
    var b := SpaceRunStart(s, a, |s|);
    assert TrimSpace(s) == s[a..b];
  }

  /** Trimming twice is trimming once. */
  lemma TrimSpaceIdempotent(s: string)
    ensures TrimSpace(TrimSpace(s)) == TrimSpace(s)
  {
  }

  /** A string that starts with a non-space keeps its first character. */
  lemma TrimSpaceKeepsFirst(s: string)
    requires |s| > 0 && !IsSpace(s[0])
    ensures |TrimSpace(s)| > 0 && TrimSpace(s)[0] == s[0]
  {
  }

  /** Every character of the trimmed string is a character of the input. */
  lemma TrimSpaceKeepsChars(s: string, c: char)
    requires c in TrimSpace(s)
    ensures c in s
  {
    var a := SpaceRunEnd(s, 0);
    var b := SpaceRunStart(s, a, |s|);
    var i :| 0 <= i < b - a && s[a..b][i] == c;
    assert s[a + i] == c;
  }

  /** unicode.ToUpper for the lower-case letters of ASCII, Latin-1, basic
      Greek (with its accented vowels) and basic Cyrillic, and for dotless i (U+0131) and long s
      (U+017F), whose upper case is ASCII. Every other character is its own
      upper case here. */
  function ToUpperChar(c: char): char {
    var n := c as int;
    if 'a' <= c <= 'z' then (n - 0x20) as char
    else if c == '\U{131}' then 'I'
    else if c == '\U{17F}' then 'S'
    else if c == '\U{B5}' then '\U{39C}'
    else if 0xE0 <= n <= 0xFE && n != 0xF7 then (n - 0x20) as char
    else if c == '\U{FF}' then '\U{178}'
    else if c == '\U{3C2}' then '\U{3A3}'
    else if c == '\U{3AC}' then '\U{386}'
    else if 0x3AD <= n <= 0x3AF then (n - 0x25) as char
    else if 0x3B1 <= n <= 0x3CB then (n - 0x20) as char
    else if c == '\U{3CC}' then '\U{38C}'
    else if 0x3CD <= n <= 0x3CE then (n - 0x3F) as char
    else if 0x430 <= n <= 0x44F then (n - 0x20) as char
    else if 0x450 <= n <= 0x45F then (n - 0x50) as char
    else c
  }

  /** strings.ToUpper, character by character. */
  function ToUpper(s: string): (r: string)
    ensures |r| == |s|
  {
    seq(|s|, i requires 0 <= i < |s| => ToUpperChar(s[i]))
  }

  predicate HasPrefix(s: string, prefix: string) {
    |prefix| <= |s| && s[..|prefix|] == prefix
  }

  /** The position of the first '=' in `s` at or after `i`, or -1. */
  function EqualsFrom(s: string, i: nat): (r: int)
    requires i <= |s|
    ensures r == -1 || i <= r < |s|
    ensures r == -1 <==> forall j :: i <= j < |s| ==> s[j] != '='
    ensures r >= 0 ==> s[r] == '=' && forall j :: i <= j < r ==> s[j] != '='
    decreases |s| - i
  {
    if i == |s| then -1 else if s[i] == '=' then i else EqualsFrom(s, i + 1)
  }

  /** strings.Index(s, "="): the position of the first '=', or -1. */
  function IndexOfEquals(s: string): (r: int)
    ensures -1 <= r < |s|
    ensures r == -1 <==> '=' !in s
    ensures r >= 0 ==> r < |s| && s[r] == '=' && '=' !in s[..r]
  {
    var r := EqualsFrom(s, 0);
    assert r >= 0 ==> '=' !in s[..r] by {
      if r >= 0 {
        assert forall c :: c in s[..r] ==> c != '=';
      }
    }
    r
  }

  /** strings.SplitN(kv, "=", 2)[0]: the variable name an entry sets, the
      text before the first '=' (the whole entry if there is none). */
  function KeyOf(kv: string): (name: string)
    ensures '=' !in name
    ensures |name| <= |kv| && name == kv[..|name|]
    ensures |name| < |kv| ==> kv[|name|] == '='
    ensures '=' in kv ==> |name| < |kv|
  {
    var i := IndexOfEquals(kv);
    if i == -1 then kv else kv[..i]
  }

  // ---------------------------------------------------------------------
  // SafeEnv

  /** The dynamic-loader variables that are never forwarded. */
  const UnsafeEnvironmentVars: set<string> := {
    "LD_ASSUME_KERNEL", "LD_AUDIT", "LD_BIND_NOW", "LD_BIND_NOT",
    "LD_DYNAMIC_WEAK", "LD_LIBRARY_PATH", "LD_ORIGIN_PATH", "LD_POINTER_GUARD",
    "LD_PREFER_MAP_32BIT_EXEC", "LD_PRELOAD", "LD_PROFILE", "LD_RUNPATH",
    "LD_RPATH", "LD_USE_LOAD_BIAS",
    "DYLD_INSERT_LIBRARIES", "DYLD_LIBRARY_PATH"
  }

  /** A name whose upper case is not one of the unsafe variables. */
  predicate SafeName(name: string) {
    ToUpper(name) !in UnsafeEnvironmentVars
  }

  /** Some entry of `env`, upper-cased, starts with `prefix`: the loop of
      unsafeKey's duplicate check. */
  function AnyEntryHasPrefix(env: seq<string>, prefix: string): (found: bool)
    ensures found <==> exists i :: 0 <= i < |env| && HasPrefix(ToUpper(env[i]), prefix)
    decreases |env|
  {
    if |env| == 0 then false
    else if HasPrefix(ToUpper(env[0]), prefix) then true
    else
      var rest := AnyEntryHasPrefix(env[1..], prefix);
      assert forall i :: 1 <= i < |env| ==> env[i] == env[1..][i - 1];
      rest
  }

  /** `key` is already set in `env`, compared case-insensitively. */
  ghost predicate Duplicate(env: seq<string>, key: string) {
    exists i :: 0 <= i < |env| && HasPrefix(ToUpper(env[i]), ToUpper(key) + "=")
  }

  /** unsafeKey: "" and "=" always pass; otherwise a key is refused when its
      upper case is an unsafe variable or, with duplicate prevention, when
      it is already set. */
  function UnsafeKey(env: seq<string>, preventDuplicates: bool, key: string): (unsafe: bool)
    ensures key == "" || key == "=" ==> !unsafe
    ensures key != "" && key != "=" ==>
      (unsafe <==> !SafeName(key) || (preventDuplicates && Duplicate(env, key)))
  {
    if key == "" || key == "=" then false
    else
      var upperKey := ToUpper(key);
      if upperKey in UnsafeEnvironmentVars then true
      else preventDuplicates && AnyEntryHasPrefix(env, upperKey + "=")
  }

  /** add, as written: trims key and value, and appends "k=v" unless
      unsafeKey refuses the trimmed key. */
  function Add(env: seq<string>, preventDuplicates: bool, k: string, v: string): (r: seq<string>)
    ensures UnsafeKey(env, preventDuplicates, TrimSpace(k)) ==> r == env
    ensures !UnsafeKey(env, preventDuplicates, TrimSpace(k)) ==>
      r == env + [TrimSpace(k) + "=" + TrimSpace(v)]
  {
    var key := TrimSpace(k);
    var value := TrimSpace(v);
    if UnsafeKey(env, preventDuplicates, key) then env else env + [key + "=" + value]
  }

  /** AddTrusted: no duplicate check; only the unsafe variables are
      refused, and the existing entries stay in place. */
  function AddTrusted(env: seq<string>, k: string, v: string): (r: seq<string>)
    ensures SafeName(TrimSpace(k)) ==> r == env + [TrimSpace(k) + "=" + TrimSpace(v)]
    ensures !SafeName(TrimSpace(k)) ==> r == env
  {
    var r := Add(env, false, k, v);
    assert TrimSpace(k) == "" || TrimSpace(k) == "=" ==> SafeName(TrimSpace(k)) by {
      assert ToUpper("=") == "=";
    }
    r
  }

  /** AddUnique: as AddTrusted, and a key already set (compared
      case-insensitively) is also refused; "" and "=" are never refused. */
  function AddUnique(env: seq<string>, k: string, v: string): (r: seq<string>)
    ensures r == env || r == env + [TrimSpace(k) + "=" + TrimSpace(v)]
    ensures var key := TrimSpace(k);
      r == env + [key + "=" + TrimSpace(v)] <==>
        key == "" || key == "=" || (SafeName(key) && !Duplicate(env, key))
  {
    Add(env, true, k, v)
  }

  /** The duplicate check compares upper cases beyond ASCII: an "é" key
      is refused once "É" is set. */
  lemma AddUniqueComparesAccentedNames()
    ensures AddUnique(["\U{C9}=1"], "\U{E9}", "2") == ["\U{C9}=1"]
  {
    var k := "\U{E9}";
    assert TrimSpace(k) == k;
    assert ToUpper(k) == "\U{C9}";
    assert ToUpper("\U{C9}=1") == "\U{C9}=1";
    assert HasPrefix(ToUpper(["\U{C9}=1"][0]), ToUpper(k) + "=");
  }

  /** One iteration of addFull's loop: the entry is trimmed and appended
      exactly when its name (the text before its first '=') is empty, or
      safe and, with duplicate prevention, not yet set. */
  function AddFullEntry(env: seq<string>, preventDuplicates: bool, kv: string): (r: seq<string>)
    ensures r == env || r == env + [TrimSpace(kv)]
    ensures var name := KeyOf(TrimSpace(kv));
      r == env + [TrimSpace(kv)] <==>
        name == "" || (SafeName(name) && !(preventDuplicates && Duplicate(env, name)))
  {
    var t := TrimSpace(kv);
    if UnsafeKey(env, preventDuplicates, KeyOf(t)) then env else env + [t]
  }

  /** Each entry trimmed, as they reach the check. */
  function TrimAll(kvs: seq<string>): (r: seq<string>)
    ensures |r| == |kvs| && forall i :: 0 <= i < |kvs| ==> r[i] == TrimSpace(kvs[i])
  {
    seq(|kvs|, i requires 0 <= i < |kvs| => TrimSpace(kvs[i]))
  }

  /** The entries of `kvs`, trimmed, whose names are safe: what the trusted
      variant keeps. */
  function SafeEntries(kvs: seq<string>): (r: seq<string>)
    ensures forall i :: 0 <= i < |r| ==> SafeName(KeyOf(r[i]))
    decreases |kvs|
  {
    if |kvs| == 0 then []
    else
      var t := TrimSpace(kvs[0]);
      (if SafeName(KeyOf(t)) then [t] else []) + SafeEntries(kvs[1..])
  }

  /** Every entry in `env` from position `from` on has a safe name. */
  ghost predicate SafeFrom(env: seq<string>, from: nat) {
    forall i :: from <= i < |env| ==> SafeName(KeyOf(env[i]))
  }

  /** No entry at or after `from` sets a name already set by an earlier
      entry (compared case-insensitively; the empty name is exempt). */
  ghost predicate UniqueFrom(env: seq<string>, from: nat) {
    forall i, j :: from <= i < |env| && 0 <= j < i && KeyOf(env[i]) != "" ==>
      !HasPrefix(ToUpper(env[j]), ToUpper(KeyOf(env[i])) + "=")
  }

  /** addFull: the entries are handled in order, each checked against
      everything accepted before it, including earlier entries of the same
      call. Only appends, and only trimmed entries of `kvs`, in order. */
  function AddFull(env: seq<string>, preventDuplicates: bool, kvs: seq<string>): (r: seq<string>)
    ensures |env| <= |r| && r[..|env|] == env
    ensures IsSubsequence(r[|env|..], TrimAll(kvs))
    decreases |kvs|
  {
    if |kvs| == 0 then
      assert env[|env|..] == [];
      env
    else
      var env' := AddFullEntry(env, preventDuplicates, kvs[0]);
      var r := AddFull(env', preventDuplicates, kvs[1..]);
      AppendsStep(env, env', kvs, r);
      r
  }

  /** Every entry addFull appends has a safe name. */
  lemma {:induction false} AddFullOnlySafe(env: seq<string>, preventDuplicates: bool, kvs: seq<string>)
    ensures SafeFrom(AddFull(env, preventDuplicates, kvs), |env|)
    decreases |kvs|
  {
    if |kvs| > 0 {
      var t := TrimSpace(kvs[0]);
      var env' := AddFullEntry(env, preventDuplicates, kvs[0]);
      var r := AddFull(env', preventDuplicates, kvs[1..]);
      AddFullOnlySafe(env', preventDuplicates, kvs[1..]);
      if env' != env {
        PrefixStep(env, t, r);
        assert SafeName(KeyOf(t)) by {
          EqualsIsSafe();
        }
        SafeStep(r, |env|);
      }
    }
  }

  /** With duplicate prevention, no entry addFull appends sets a name that
      an earlier entry sets. */
  lemma {:induction false} AddFullOnlyNew(env: seq<string>, kvs: seq<string>)
    ensures UniqueFrom(AddFull(env, true, kvs), |env|)
    decreases |kvs|
  {
    if |kvs| > 0 {
      var t := TrimSpace(kvs[0]);
      var env' := AddFullEntry(env, true, kvs[0]);
      var r := AddFull(env', true, kvs[1..]);
      AddFullOnlyNew(env', kvs[1..]);
      if env' != env {
        PrefixStep(env, t, r);
        UniqueStep(env, r, KeyOf(t));
      }
    }
  }

  /** Without duplicate prevention addFull keeps exactly the entries with
      safe names, trimmed, in order. */
  lemma {:induction false} AddFullKeepsSafeEntries(env: seq<string>, kvs: seq<string>)
    ensures AddFull(env, false, kvs) == env + SafeEntries(kvs)
    decreases |kvs|
  {
    if |kvs| == 0 {
      assert env + [] == env;
    } else {
      var t := TrimSpace(kvs[0]);
      var env' := AddFullEntry(env, false, kvs[0]);
      AddFullKeepsSafeEntries(env', kvs[1..]);
      EqualsIsSafe();
      if SafeName(KeyOf(t)) {
        assert env' == env + [t];
        assert SafeEntries(kvs) == [t] + SafeEntries(kvs[1..]);
        AppendAssociates(env, [t], SafeEntries(kvs[1..]));
      } else {
        assert env' == env;
        assert SafeEntries(kvs) == SafeEntries(kvs[1..]);
      }
    }
  }

  /** addFull handles the entries one at a time, in order: adding one more
      entry is one more iteration of its loop, judged against everything
      accepted so far. */
  lemma {:induction false} AddFullSnoc(env: seq<string>, preventDuplicates: bool, kvs: seq<string>, kv: string)
    ensures AddFull(env, preventDuplicates, kvs + [kv]) ==
      AddFullEntry(AddFull(env, preventDuplicates, kvs), preventDuplicates, kv)
    decreases |kvs|
  {
    var all := kvs + [kv];
    if |kvs| == 0 {
      assert all == [kv] && all[1..] == [];
    } else {
      assert all[0] == kvs[0] && all[1..] == kvs[1..] + [kv];
      AddFullSnoc(AddFullEntry(env, preventDuplicates, kvs[0]), preventDuplicates, kvs[1..], kv);
    }
  }

  /** addFull appends at most one entry per input entry, and each one is
      an input entry, trimmed. */
  lemma AddFullBounds(env: seq<string>, preventDuplicates: bool, kvs: seq<string>)
    ensures var r := AddFull(env, preventDuplicates, kvs);
      && |r| <= |env| + |kvs|
      && forall i :: |env| <= i < |r| ==> r[i] in TrimAll(kvs)
  {
    var r := AddFull(env, preventDuplicates, kvs);
    SuffixFromSubsequence(r, |env|, TrimAll(kvs));
  }

  /** The entries past `from` are as many as, and drawn from, the
      sequence that `r[from..]` is a subsequence of. */
  lemma SuffixFromSubsequence(r: seq<string>, from: nat, all: seq<string>)
    requires from <= |r| && IsSubsequence(r[from..], all)
    ensures |r| <= from + |all|
    ensures forall i :: from <= i < |r| ==> r[i] in all
  {
    SubsequenceShrinks(r[from..], all);
    forall i | from <= i < |r|
      ensures r[i] in all
    {
      assert r[i] == r[from..][i - from];
    }
  }

  /** The induction step of AddFull's contract. */
  lemma AppendsStep(env: seq<string>, env': seq<string>, kvs: seq<string>, r: seq<string>)
    requires |kvs| > 0
    requires env' == env || env' == env + [TrimSpace(kvs[0])]
    requires |env'| <= |r| && r[..|env'|] == env'
    requires IsSubsequence(r[|env'|..], TrimAll(kvs[1..]))
    ensures |env| <= |r| && r[..|env|] == env
    ensures IsSubsequence(r[|env|..], TrimAll(kvs))
  {
    var t := TrimSpace(kvs[0]);
    TrimAllStep(kvs);
    if env' == env {
      SubsequenceSkip(r[|env|..], TrimAll(kvs));
    } else {
      PrefixStep(env, t, r);
      AcceptedExtendsSubsequence(env, r, t, TrimAll(kvs));
    }
  }

  /** TrimAll, one entry at a time. */
  lemma TrimAllStep(kvs: seq<string>)
    requires |kvs| > 0
    ensures TrimAll(kvs)[0] == TrimSpace(kvs[0]) && TrimAll(kvs)[1..] == TrimAll(kvs[1..])
  {
  }

  /** `r` starting with `env + [t]` starts with `env`, then `t`. */
  lemma PrefixStep(env: seq<string>, t: string, r: seq<string>)
    requires |env| + 1 <= |r| && r[..|env| + 1] == env + [t]
    ensures r[..|env|] == env && r[|env|] == t
  {
    assert r[..|env|] == r[..|env| + 1][..|env|];
  }

  lemma AppendAssociates(a: seq<string>, b: seq<string>, c: seq<string>)
    ensures (a + b) + c == a + (b + c)
  {
  }

  /** Accepting `t`, the first of `all`, extends the subsequence by it. */
  lemma AcceptedExtendsSubsequence(env: seq<string>, r: seq<string>, t: string, all: seq<string>)
    requires |env| < |r| && r[|env|] == t && |all| > 0 && all[0] == t
    requires IsSubsequence(r[|env| + 1..], all[1..])
    ensures IsSubsequence(r[|env|..], all)
  {
    assert r[|env|..][1..] == r[|env| + 1..];
  }

  /** A safe name at position `i` extends SafeFrom by one position. */
  lemma SafeStep(r: seq<string>, i: nat)
    requires i < |r| && SafeName(KeyOf(r[i])) && SafeFrom(r, i + 1)
    ensures SafeFrom(r, i)
  {
  }

  /** An accepted non-empty name is not set by any earlier entry, so
      uniqueness extends by one position. */
  lemma UniqueStep(env: seq<string>, r: seq<string>, name: string)
    requires |env| < |r| && r[..|env|] == env && KeyOf(r[|env|]) == name
    requires name != "" ==> !Duplicate(env, name)
    requires UniqueFrom(r, |env| + 1)
    ensures UniqueFrom(r, |env|)
  {
    if name != "" {
      forall j | 0 <= j < |env|
        ensures !HasPrefix(ToUpper(r[j]), ToUpper(name) + "=")
      {
        assert r[j] == env[j];
      }
    }
  }

  /** AddFullTrusted: every entry with a safe name is appended, trimmed, in
      the order given. */
  function AddFullTrusted(env: seq<string>, kvs: seq<string>): (r: seq<string>)
    ensures r == env + SafeEntries(kvs)
  {
    AddFullKeepsSafeEntries(env, kvs);
    AddFull(env, false, kvs)
  }

  /** AddFullUnique: appends entries with safe names that are not yet set,
      in the order given. */
  function AddFullUnique(env: seq<string>, kvs: seq<string>): (r: seq<string>)
    ensures |env| <= |r| && r[..|env|] == env
    ensures IsSubsequence(r[|env|..], TrimAll(kvs))
    ensures SafeFrom(r, |env|) && UniqueFrom(r, |env|)
  {
    AddFullOnlySafe(env, true, kvs);
    AddFullOnlyNew(env, kvs);
    AddFull(env, true, kvs)
  }

  /** What AddFullUnique keeps: one more entry is appended, trimmed,
      exactly when its name is empty, or safe and set neither before the
      call nor by an entry accepted earlier in it. */
  lemma AddFullUniqueAppendsNewSafe(env: seq<string>, kvs: seq<string>, kv: string)
    ensures var before := AddFullUnique(env, kvs);
      var t := TrimSpace(kv);
      var name := KeyOf(t);
      AddFullUnique(env, kvs + [kv]) ==
        if name == "" || (SafeName(name) && !Duplicate(before, name)) then before + [t] else before
  {
    AddFullSnoc(env, true, kvs, kv);
  }

  /** AddExecEnvironment with the process environment `environ` (from
      os.Environ) as an argument: entries already present win. */
  function AddExecEnvironment(env: seq<string>, environ: seq<string>): (r: seq<string>)
    ensures |env| <= |r| && r[..|env|] == env
    ensures SafeFrom(r, |env|) && UniqueFrom(r, |env|)
    ensures r == AddFullUnique(env, environ)
  {
    AddFullOnlySafe(env, true, environ);
    AddFullOnlyNew(env, environ);
    AddFull(env, true, environ)
  }

  /** add refuses by the whole trimmed key, yet the entry it appends sets
      the variable named by the text before the first '='. A key holding
      '=' therefore slips an unsafe variable through: this call appends an
      entry that sets LD_PRELOAD. */
  lemma AddLetsUnsafeNameThrough()
    ensures Add([], false, "LD_PRELOAD=/tmp/x.so", "1") == ["LD_PRELOAD=/tmp/x.so=1"]
    ensures !SafeName(KeyOf("LD_PRELOAD=/tmp/x.so=1"))
  {
    AddAcceptsKeyWithEquals();
    EntrySetsPreload();
    PreloadIsUnsafe();
  }

  lemma PreloadIsUnsafe()
    ensures !SafeName("LD_PRELOAD")
  {
    assert ToUpper("LD_PRELOAD") == "LD_PRELOAD";
  }

  /** add accepts the key "LD_PRELOAD=/tmp/x.so": as a whole it is not an
      unsafe name. */
  lemma AddAcceptsKeyWithEquals()
    ensures Add([], false, "LD_PRELOAD=/tmp/x.so", "1") == ["LD_PRELOAD=/tmp/x.so=1"]
  {
    var k := "LD_PRELOAD=/tmp/x.so";
    assert TrimSpace(k) == k;
    assert TrimSpace("1") == "1";
    assert SafeName(k) by {
      assert |ToUpper(k)| == 20;
    }
    assert "LD_PRELOAD=/tmp/x.so=1" == k + "=" + "1";
  }

  /** The entry add appends sets LD_PRELOAD. */
  lemma EntrySetsPreload()
    ensures KeyOf("LD_PRELOAD=/tmp/x.so=1") == "LD_PRELOAD"
  {
    KeyOfIsUpToFirstEquals("LD_PRELOAD=/tmp/x.so=1", 10);
  }

  /** add as intended: the name checked is the name the entry sets. */
  function AddChecked(env: seq<string>, preventDuplicates: bool, k: string, v: string): (r: seq<string>)
    ensures r == env || r == env + [TrimSpace(k) + "=" + TrimSpace(v)]
    ensures var name := KeyOf(TrimSpace(k) + "=" + TrimSpace(v));
      r == env + [TrimSpace(k) + "=" + TrimSpace(v)] <==>
        name == "" || (SafeName(name) && !(preventDuplicates && Duplicate(env, name)))
    ensures |r| > |env| ==> SafeName(KeyOf(r[|r| - 1]))
    ensures |r| > |env| && preventDuplicates && KeyOf(r[|r| - 1]) != "" ==>
      !Duplicate(env, KeyOf(r[|r| - 1]))
  {
    var key := TrimSpace(k);
    var name := KeyOf(key);
    var entry := key + "=" + TrimSpace(v);
    KeyOfEntry(key, TrimSpace(v));
    EqualsIsSafe();
    if UnsafeKey(env, preventDuplicates, name) then env else env + [entry]
  }

  /** The name set by "k=v" is the name in k. */
  lemma KeyOfEntry(k: string, v: string)
    ensures KeyOf(k + "=" + v) == KeyOf(k)
  {
    var e := k + "=" + v;
    var name := KeyOf(k);
    assert e[..|name|] == k[..|name|];
    assert e[|name|] == '=';
    KeyOfIsUpToFirstEquals(e, |name|);
  }

  /** The two keys unsafeKey lets through unconditionally have safe names. */
  lemma EqualsIsSafe()
    ensures SafeName("") && SafeName("=")
  {
    assert ToUpper("=") == "=";
  }

  /** KeyOf stops at the first '='. */
  lemma KeyOfIsUpToFirstEquals(s: string, n: nat)
    requires n < |s| && s[n] == '=' && forall i :: 0 <= i < n ==> s[i] != '='
    ensures KeyOf(s) == s[..n]
  {
    var i := IndexOfEquals(s);
    assert '=' !in s[..n];
  }

  /** When the trimmed key holds no '=' (as in every key the environment
      file parser passes), add as written and as intended agree. */
  lemma AddCheckedAgreesWithoutEquals(env: seq<string>, preventDuplicates: bool, k: string, v: string)
    requires '=' !in TrimSpace(k)
    ensures AddChecked(env, preventDuplicates, k, v) == Add(env, preventDuplicates, k, v)
  {
  }

  // ---------------------------------------------------------------------
  // ReadEnvironmentFile

  /** teleport.MaxEnvironmentFileLines, after OpenSSH's limit. */
  const MaxEnvironmentFileLines: nat := 1000

  /** The key and value of one line of an environment file: `None` for a
      blank line, a comment, a line without '=' or a key without a name.
      A key starts at the line's first non-space character, so it holds no
      '=', does not start with '#' and does not start with white space. */
  function SplitLine(raw: string): (kv: Option<(string, string)>)
    ensures var line := TrimSpace(raw);
      kv.Some? <==> line != "" && line[0] != '#' && '=' in line && TrimSpace(KeyOf(line)) != ""
    ensures var line := TrimSpace(raw);
      kv.Some? ==>
        && |KeyOf(line)| < |line|
        && kv.value == (KeyOf(line), line[|KeyOf(line)| + 1..])
    ensures kv.Some? ==>
      && TrimSpace(kv.value.0) != ""
      && '=' !in kv.value.0
      && kv.value.0[0] != '#' && !IsSpace(kv.value.0[0])
  {
    var line := TrimSpace(raw);
    if line == "" || line[0] == '#' then None
    else
      var idx := IndexOfEquals(line);
      if idx == -1 then None
      else
        var key := line[..idx];
        if TrimSpace(key) == "" then None
        else
          assert key[0] == line[0];
          Some((key, line[idx + 1..]))
  }

  /** One line of an environment file, added without duplicate check to
      `env` by add as intended; ParserKeysHaveNoEquals shows that this is
      what AddTrusted as written does with the keys the parser passes. */
  function ParseLine(env: seq<string>, raw: string): seq<string> {
    match SplitLine(raw)
    case None => env
    case Some((key, value)) => AddChecked(env, false, key, value)
  }

  /** The lines in order. */
  function ParseLines(env: seq<string>, lines: seq<string>): seq<string>
    decreases |lines|
  {
    if |lines| == 0 then env else ParseLines(ParseLine(env, lines[0]), lines[1..])
  }

  /** ReadEnvironmentFile. `fileOpened` says whether the file could be fileOpened,
      `lines` are the lines the scanner produced, and `readFailed` whether
      it stopped on an error after them. Failures yield an empty list and
      no error; on the line past the maximum the entries so far are
      returned. */
  function ReadEnvironmentFile(fileOpened: bool, lines: seq<string>, readFailed: bool): seq<string> {
    if !fileOpened then []
    else if |lines| > MaxEnvironmentFileLines then ParseLines([], lines[..MaxEnvironmentFileLines])
    else if readFailed then []
    else ParseLines([], lines)
  }

  /** What a parsed entry looks like: a name that is non-empty, has no
      white space at either end, does not start with '#' and is safe,
      then '=', then the trimmed value. */
  ghost predicate WellFormedEntry(e: string) {
    var name := KeyOf(e);
    && 0 < |name| < |e|
    && !IsSpace(name[0]) && !IsSpace(name[|name| - 1])
    && name[0] != '#'
    && SafeName(name)
    && TrimSpace(e[|name| + 1..]) == e[|name| + 1..]
  }

  /** A line adds at most one entry, at the end, and that entry is well
      formed. */
  lemma ParseLineAddsWellFormed(env: seq<string>, raw: string)
    ensures var r := ParseLine(env, raw);
      r == env || (|r| == |env| + 1 && r[..|env|] == env && WellFormedEntry(r[|env|]))
  {
    if SplitLine(raw).Some? {
      var (key, value) := SplitLine(raw).value;
      var k := TrimSpace(key);
      var v := TrimSpace(value);
      var r := ParseLine(env, raw);
      if r != env {
        assert r == env + [k + "=" + v];
        assert '=' !in k by {
          if '=' in k {
            TrimSpaceKeepsChars(key, '=');
          }
        }
        KeyOfEntry(k, v);
        assert SafeName(k);
        TrimSpaceKeepsFirst(key);
        TrimSpaceIdempotent(value);
        EntryWellFormed(k, v);
        assert r[..|env|] == env;
      }
    }
  }

  /** A trimmed, safe name without '=' that does not start with '#',
      joined to a trimmed value, is a well-formed entry. */
  lemma EntryWellFormed(name: string, v: string)
    requires name != "" && !IsSpace(name[0]) && !IsSpace(name[|name| - 1]) && name[0] != '#'
    requires '=' !in name && SafeName(name) && v == TrimSpace(v)
    ensures WellFormedEntry(name + "=" + v)
  {
    var e := name + "=" + v;
    assert e[..|name|] == name;
    assert forall i :: 0 <= i < |name| ==> e[i] == name[i];
    KeyOfIsUpToFirstEquals(e, |name|);
    assert KeyOf(e) == name;
    assert e[|name| + 1..] == v;
  }

  /** Every entry of `env` is well formed. */
  ghost predicate AllWellFormed(env: seq<string>) {
    forall i :: 0 <= i < |env| ==> WellFormedEntry(env[i])
  }

  /** Every entry the parser produces is well formed, and parsing only
      appends, at most one entry per line. */
  lemma {:induction false} ParseLinesWellFormed(env: seq<string>, lines: seq<string>)
    requires AllWellFormed(env)
    ensures var r := ParseLines(env, lines);
      && |env| <= |r| <= |env| + |lines| && r[..|env|] == env
      && AllWellFormed(r)
    decreases |lines|
  {
    if |lines| > 0 {
      var env' := ParseLine(env, lines[0]);
      ParseLineAddsWellFormed(env, lines[0]);
      AppendKeepsWellFormed(env, env');
      ParseLinesWellFormed(env', lines[1..]);
      PrefixOfPrefix(env, env', ParseLines(env', lines[1..]));
    }
  }

  /** Appending at most one well-formed entry keeps every entry well formed. */
  lemma AppendKeepsWellFormed(env: seq<string>, env': seq<string>)
    requires AllWellFormed(env)
    requires env' == env || (|env'| == |env| + 1 && env'[..|env|] == env && WellFormedEntry(env'[|env|]))
    ensures AllWellFormed(env') && |env| <= |env'| && env'[..|env|] == env
  {
    if env' != env {
      forall i | 0 <= i < |env'| ensures WellFormedEntry(env'[i]) {
        if i < |env| {
          assert env'[i] == env'[..|env|][i];
        }
      }
    }
  }

  /** Being a prefix is transitive. */
  lemma PrefixOfPrefix(a: seq<string>, b: seq<string>, c: seq<string>)
    requires |a| <= |b| && b[..|a|] == a
    requires |b| <= |c| && c[..|b|] == b
    ensures c[..|a|] == a
  {
    assert c[..|a|] == c[..|b|][..|a|];
  }

  /** The entry one line of an environment file contributes, read off the
      line rules: the trimmed line must be non-empty, must not start with
      '#' and must hold '='; the text before the first '=', trimmed, is the
      name, which must be non-empty and safe; the text after it, trimmed,
      is the value. */
  ghost function LineEntry(raw: string): seq<string> {
    var line := TrimSpace(raw);
    if line == "" || line[0] == '#' || '=' !in line then []
    else
      var name := TrimSpace(KeyOf(line));
      if name == "" || !SafeName(name) then []
      else [name + "=" + TrimSpace(line[|KeyOf(line)| + 1..])]
  }

  /** The entries of the lines, in order. */
  ghost function FileEntries(lines: seq<string>): seq<string>
    decreases |lines|
  {
    if |lines| == 0 then [] else LineEntry(lines[0]) + FileEntries(lines[1..])
  }

  /** The parser adds exactly the entry the line rules give. */
  lemma ParseLineIsLineEntry(env: seq<string>, raw: string)
    ensures ParseLine(env, raw) == env + LineEntry(raw)
  {
    match SplitLine(raw)
    case None =>
      assert LineEntry(raw) == [];
      assert env + [] == env;
    case Some((key, value)) =>
      ParserKeysHaveNoEquals(env, raw);
  }

  /** The parser adds exactly the entries the line rules give, in order. */
  lemma {:induction false} ParseLinesIsFileEntries(env: seq<string>, lines: seq<string>)
    ensures ParseLines(env, lines) == env + FileEntries(lines)
    decreases |lines|
  {
    if |lines| == 0 {
      assert env + [] == env;
    } else {
      ParseLineIsLineEntry(env, lines[0]);
      ParseLinesIsFileEntries(env + LineEntry(lines[0]), lines[1..]);
      AppendAssociates(env, LineEntry(lines[0]), FileEntries(lines[1..]));
    }
  }

  /** The file reader's contract: at most one entry per line read and never
      more than the line limit, every entry well formed, nothing on a
      failed open or read, otherwise exactly the entries the line rules
      give, where a file past the limit is read as its first
      MaxEnvironmentFileLines lines. */
  lemma ReadEnvironmentFileContract(fileOpened: bool, lines: seq<string>, readFailed: bool)
    ensures var r := ReadEnvironmentFile(fileOpened, lines, readFailed);
      && |r| <= MaxEnvironmentFileLines
      && |r| <= |lines|
      && (forall i :: 0 <= i < |r| ==> WellFormedEntry(r[i]))
      && (!fileOpened ==> r == [])
      && (|lines| <= MaxEnvironmentFileLines && readFailed ==> r == [])
      && (fileOpened && |lines| <= MaxEnvironmentFileLines && !readFailed ==> r == FileEntries(lines))
      && (fileOpened && |lines| > MaxEnvironmentFileLines ==>
            r == FileEntries(lines[..MaxEnvironmentFileLines]))
  {
    if fileOpened {
      if |lines| > MaxEnvironmentFileLines {
        ParseLinesWellFormed([], lines[..MaxEnvironmentFileLines]);
        ParseLinesIsFileEntries([], lines[..MaxEnvironmentFileLines]);
      } else {
        ParseLinesWellFormed([], lines);
        ParseLinesIsFileEntries([], lines);
      }
    }
  }

  /** The parser only ever passes keys without '=', so the add defect does
      not reach it: AddTrusted as written gives the same result. */
  lemma ParserKeysHaveNoEquals(env: seq<string>, raw: string)
    ensures SplitLine(raw).Some? ==>
      && '=' !in TrimSpace(SplitLine(raw).value.0)
      && ParseLine(env, raw) ==
           AddTrusted(env, SplitLine(raw).value.0, SplitLine(raw).value.1)
  {
    if SplitLine(raw).Some? {
      var (key, value) := SplitLine(raw).value;
      assert '=' !in TrimSpace(key) by {
        if '=' in TrimSpace(key) {
          TrimSpaceKeepsChars(key, '=');
        }
      }
      AddCheckedAgreesWithoutEquals(env, false, key, value);
    }
  }
}

=== FILE: interval.dfy ===
/** A resettable, jitterable periodic trigger.

    The goroutine running `run` is a state machine over: the timer's
    deadline, the tick staged for sending (the `ch`/`tick` pair of `run`;
    `ch` is non-nil exactly when a tick is staged), the output channel's
    one-slot buffer, and two flags: `done` (Stop closed the done channel)
    and `running` (the goroutine has not returned). Each `select` arm of
    `run`, each caller operation and the consumer's receive is an event.
    Times are integers (nanoseconds). A `Reset` or `FireNow` call that
    returns through the done channel changes nothing and is not an event. */
module Interval {
  import opened Wrappers

  /** retryutils.Jitter applied at the k-th call of duration(): the model
      of a random jitter is an arbitrary function of the call index. */
  type Jitter = (int, nat) -> int

  /** Config; the clock is replaced by the times carried by events. */
  datatype Config = Config(duration: int, firstDuration: int, jitter: Option<Jitter>)

  /** duration(), called for the k-th time. */
  function Duration(cfg: Config, k: nat): int {
    match cfg.jitter
    case None => cfg.duration
    case Some(j) => j(cfg.duration, k)
  }

  /** Every value of duration() lies in [lo, hi]. */
  ghost predicate DurationWithin(cfg: Config, lo: int, hi: int) {
    forall k: nat :: lo <= Duration(cfg, k) <= hi
  }

  /** The state of an interval. `draws` counts the calls of duration() so
      far. */
  datatype State = State(
    deadline: int,
    staged: Option<int>,
    buffer: Option<int>,
    draws: nat,
    done: bool,
    running: bool)

  /** New at clock time `now`. A non-positive Duration panics, so it is a
      precondition. A zero FirstDuration is replaced by duration(); any
      other FirstDuration is used as it is, without jitter. */
  function New(cfg: Config, now: int): (s: State)
    requires cfg.duration > 0
    ensures s.running && !s.done && s.staged.None? && s.buffer.None?
    ensures cfg.firstDuration == 0 ==> s.deadline == now + Duration(cfg, 0) && s.draws == 1
    ensures cfg.firstDuration != 0 ==> s.deadline == now + cfg.firstDuration && s.draws == 0
  {
    if cfg.firstDuration == 0 then State(now + Duration(cfg, 0), None, None, 1, false, true)
    else State(now + cfg.firstDuration, None, None, 0, false, true)
  }

  /** NewNoop: an output channel and a done channel, and no goroutine. */
  function NewNoop(): (s: State)
    ensures !s.running && !s.done && s.staged.None? && s.buffer.None?
  {
    State(0, None, None, 0, false, false)
  }

  /** The events.
      - TimerFired(firedAt, now): the timer, which fired at `firedAt`, is
        received by `run` at `now`;
      - Reset(now), FireNow(now, wall): a caller's rendezvous with `run`;
        FireNow stages `wall`, the value of time.Now(), which is not the
        configured clock;
      - Send: `run` hands the staged tick to the output channel;
      - Receive: the consumer takes the buffered tick;
      - Stop: the done channel is closed;
      - Exit: `run` selects the closed done channel and returns. */
  datatype Event =
    | TimerFired(firedAt: int, now: int)
    | Reset(now: int)
    | FireNow(now: int, wall: int)
    | Send
    | Receive
    | Stop
    | Exit

  /** Re-arming the timer at `now` with a fresh duration(). */
  function Rearm(cfg: Config, s: State, now: int): State {
    s.(deadline := now + Duration(cfg, s.draws), draws := s.draws + 1)
  }

  /** One event. Events that cannot happen in `s` (a timer that has not
      fired, a send with nothing staged or a full buffer, anything of `run`
      after it returned) leave `s` unchanged. */
  function Step(cfg: Config, s: State, e: Event): (r: State)
    ensures !s.running ==> r.running == false && r.staged == s.staged && r.deadline == s.deadline
    ensures !s.running && !e.Receive? && !e.Stop? ==> r == s
    ensures r.done == (s.done || e.Stop?)
    ensures r.running == (s.running && !(e.Exit? && s.done))
    // a fire stages its own time, replacing an undelivered tick, and re-arms
    ensures e.TimerFired? && s.running && s.deadline <= e.firedAt <= e.now ==>
      && r.staged == Some(e.firedAt) && r.buffer == s.buffer
      && r.deadline == e.now + Duration(cfg, s.draws) && r.draws == s.draws + 1
    // a timer that is not due has not fired: nothing happens
    ensures e.TimerFired? && !(s.deadline <= e.firedAt <= e.now) ==> r == s
    // Reset drops the staged tick and restarts a full period
    ensures e.Reset? && s.running ==>
      && r.staged.None? && r.buffer == s.buffer
      && r.deadline == e.now + Duration(cfg, s.draws) && r.draws == s.draws + 1
    // FireNow stages the wall-clock time and restarts a full period
    ensures e.FireNow? && s.running ==>
      && r.staged == Some(e.wall) && r.buffer == s.buffer
      && r.deadline == e.now + Duration(cfg, s.draws) && r.draws == s.draws + 1
    // a send moves the staged tick into the free buffer slot, once
    ensures e.Send? && s.running && s.staged.Some? && s.buffer.None? ==>
      r.buffer == s.staged && r.staged.None?
    ensures e.Send? && !(s.running && s.staged.Some? && s.buffer.None?) ==> r == s
    // handing over or taking a tick touches neither the timer nor duration()
    ensures e.Send? || e.Receive? ==> r.deadline == s.deadline && r.draws == s.draws
    ensures e.Receive? ==> r.buffer.None? && r.staged == s.staged && r.deadline == s.deadline
    // Stop only closes the done channel: a staged or buffered tick survives it
    ensures e.Stop? ==> r == s.(done := true)
    // returning touches neither the timer, the staged tick nor the buffer
    ensures e.Exit? ==>
      r.staged == s.staged && r.buffer == s.buffer && r.deadline == s.deadline && r.draws == s.draws
  {
    match e
    case TimerFired(firedAt, now) =>
      if s.running && s.deadline <= firedAt <= now then Rearm(cfg, s, now).(staged := Some(firedAt))
      else s
    case Reset(now) =>
      if s.running then Rearm(cfg, s, now).(staged := None) else s
    case FireNow(now, wall) =>
      if s.running then Rearm(cfg, s, now).(staged := Some(wall)) else s
    case Send =>
      if s.running && s.staged.Some? && s.buffer.None? then s.(buffer := s.staged, staged := None)
      else s
    case Receive => s.(buffer := None)
    case Stop => s.(done := true)
    case Exit => if s.running && s.done then s.(running := false) else s
  }

  /** The tick the consumer obtains from an event, if any. */
  function Output(s: State, e: Event): Option<int> {
    if e.Receive? then s.buffer else None
  }

  /** The state after a sequence of events. */
  function Run(cfg: Config, s: State, events: seq<Event>): State
    decreases |events|
  {
    if |events| == 0 then s else Run(cfg, Step(cfg, s, events[0]), events[1..])
  }

  /** The ticks the consumer receives along a sequence of events. */
  function Outputs(cfg: Config, s: State, events: seq<Event>): seq<int>
    decreases |events|
  {
    if |events| == 0 then []
    else
      var out := Output(s, events[0]);
      (if out.Some? then [out.value] else []) + Outputs(cfg, Step(cfg, s, events[0]), events[1..])
  }

  /** Ticks held by the state: staged plus buffered. */
  function Pending(s: State): nat {
    (if s.staged.Some? then 1 else 0) + (if s.buffer.Some? then 1 else 0)
  }

  /** The events that can stage a tick. */
  function Stagings(events: seq<Event>): nat
    decreases |events|
  {
    if |events| == 0 then 0
    else (if events[0].TimerFired? || events[0].FireNow? then 1 else 0) + Stagings(events[1..])
  }

  /** No tick is delivered twice: every received tick used up one staging
      event or one tick already held at the start. */
  lemma {:induction false} EachTickDeliveredAtMostOnce(cfg: Config, s: State, events: seq<Event>)
    ensures |Outputs(cfg, s, events)| + Pending(Run(cfg, s, events)) <= Pending(s) + Stagings(events)
    decreases |events|
  {
    if |events| > 0 {
      EachTickDeliveredAtMostOnce(cfg, Step(cfg, s, events[0]), events[1..]);
    }
  }

  /** From a new interval, the consumer receives at most as many ticks as
      there were timer fires and FireNow calls. */
  lemma NewIntervalDeliversNoMoreThanStaged(cfg: Config, now: int, events: seq<Event>)
    requires cfg.duration > 0
    ensures |Outputs(cfg, New(cfg, now), events)| <= Stagings(events)
  {
    EachTickDeliveredAtMostOnce(cfg, New(cfg, now), events);
  }

  /** Once `run` has returned, nothing is staged or sent any more: the
      consumer can still take the tick already in the buffer, and nothing
      else. Reset and FireNow change nothing. */
  lemma {:induction false} NothingAfterExit(cfg: Config, s: State, events: seq<Event>)
    requires !s.running
    ensures var out := Outputs(cfg, s, events);
      |out| <= 1 && (|out| == 1 ==> s.buffer == Some(out[0]))
    ensures !Run(cfg, s, events).running
    decreases |events|
  {
    if |events| > 0 {
      var s' := Step(cfg, s, events[0]);
      NothingAfterExit(cfg, s', events[1..]);
      if events[0].Receive? {
        NothingAfterExitEmpty(cfg, s', events[1..]);
      }
    }
  }

  /** After exit with an empty buffer no tick is ever received. */
  lemma {:induction false} NothingAfterExitEmpty(cfg: Config, s: State, events: seq<Event>)
    requires !s.running && s.buffer.None?
    ensures Outputs(cfg, s, events) == []
    decreases |events|
  {
    if |events| > 0 {
      NothingAfterExitEmpty(cfg, Step(cfg, s, events[0]), events[1..]);
    }
  }

  /** An interval from NewNoop never produces a tick. */
  lemma NoopNeverTicks(cfg: Config, events: seq<Event>)
    ensures Outputs(cfg, NewNoop(), events) == []
  {
    NothingAfterExitEmpty(cfg, NewNoop(), events);
  }

  /** Stop is idempotent. */
  lemma StopIsIdempotent(cfg: Config, s: State)
    ensures Step(cfg, Step(cfg, s, Stop), Stop) == Step(cfg, s, Stop)
  {
  }

  /** Reset and FireNow block until `run` takes the rendezvous or the done
      channel is closed: they can return iff the goroutine is alive or Stop
      has been called. */
  predicate CallCanReturn(s: State) {
    s.running || s.done
  }

  /** On an interval from New, Reset and FireNow never block for good:
      `run` only returns after Stop, and Stop is permanent. */
  lemma {:induction false} NewIntervalCallsReturn(cfg: Config, s: State, events: seq<Event>)
    requires CallCanReturn(s)
    ensures CallCanReturn(Run(cfg, s, events))
    ensures s.done ==> Run(cfg, s, events).done
    decreases |events|
  {
    if |events| > 0 {
      NewIntervalCallsReturn(cfg, Step(cfg, s, events[0]), events[1..]);
    }
  }

  /** On an interval from NewNoop, Reset and FireNow block until Stop is
      called: there is no goroutine to meet them. */
  lemma {:induction false} NoopCallsBlockUntilStop(cfg: Config, s: State, events: seq<Event>)
    requires !s.running && !s.done
    ensures CallCanReturn(Run(cfg, s, events)) <==> exists i :: 0 <= i < |events| && events[i].Stop?
    decreases |events|
  {
    if |events| > 0 {
      var s' := Step(cfg, s, events[0]);
      if events[0].Stop? {
        NewIntervalCallsReturn(cfg, s', events[1..]);
      } else {
        NoopCallsBlockUntilStop(cfg, s', events[1..]);
        assert forall i :: 1 <= i < |events| ==> events[i] == events[1..][i - 1];
      }
    }
  }

  /** With every duration() in [lo, hi], a fire, Reset or FireNow at `now`
      puts the next fire in [now + lo, now + hi]. */
  lemma NextFireWithinJitterBounds(cfg: Config, s: State, e: Event, lo: int, hi: int)
    requires DurationWithin(cfg, lo, hi)
    requires s.running
    requires e.Reset? || e.FireNow? || (e.TimerFired? && s.deadline <= e.firedAt <= e.now)
    ensures e.now + lo <= Step(cfg, s, e).deadline <= e.now + hi
  {
    assert lo <= Duration(cfg, s.draws) <= hi;
  }

  /** Two FireNow calls in quick succession can yield a single tick: if
      `run` takes the second call before sending the first tick, the
      second overwrites it. */
  lemma FireNowTwiceCanMerge()
    ensures var cfg := Config(10, 0, None);
      Outputs(cfg, New(cfg, 0), [FireNow(1, 1), FireNow(2, 2), Send, Receive, Send, Receive]) == [2]
  {
    var cfg := Config(10, 0, None);
    var s0 := New(cfg, 0);
    var s1 := Step(cfg, s0, FireNow(1, 1));
    var s2 := Step(cfg, s1, FireNow(2, 2));
    var s3 := Step(cfg, s2, Send);
    assert s3.buffer == Some(2) && s3.staged.None?;
  }
}

=== FILE: sequences.dfy ===
/** Order-preserving selection on sequences, shared by the filters. */
module Sequences {

  /** `a` can be obtained from `b` by deleting elements, keeping the order of
      the rest. */
  ghost predicate IsSubsequence<T>(a: seq<T>, b: seq<T>)
    decreases |b|
  {
    || |a| == 0
    || (&& |b| > 0
        && ((a[0] == b[0] && IsSubsequence(a[1..], b[1..])) || IsSubsequence(a, b[1..])))
  }

  /** A subsequence of the tail of `b` is a subsequence of `b`. */
  lemma SubsequenceSkip<T>(a: seq<T>, b: seq<T>)
    requires |b| > 0 && IsSubsequence(a, b[1..])
    ensures IsSubsequence(a, b)
  {
  }

  /** A subsequence has no more elements than the sequence it came from, and
      every element it holds occurs there. */
  lemma {:induction false} SubsequenceShrinks<T>(a: seq<T>, b: seq<T>)
    requires IsSubsequence(a, b)
    ensures |a| <= |b|
    ensures forall x :: x in a ==> x in b
    decreases |b|
  {
    if |a| > 0 {
      if a[0] == b[0] && IsSubsequence(a[1..], b[1..]) {
        SubsequenceShrinks(a[1..], b[1..]);
        assert forall x :: x in a ==> x == a[0] || x in a[1..];
      } else {
        SubsequenceShrinks(a, b[1..]);
      }
    }
  }
}

=== FILE: wrappers.dfy ===
/** The two shapes the modules below use for Go's "value or nil" and
    "(value, error)" returns. */
module Wrappers {

  /** A value that may be absent (a nil pointer, a nil error, a nil channel). */
  datatype Option<+T> = None | Some(value: T)

  /** A value or the error that replaced it. */
  datatype Result<+T, +E> = Success(value: T) | Failure(error: E)
}
